=== FILE: README.md ===
# HeronTriangle in Dafny

A model of the logic inside HeronTriangle, a small OpenGL triangle
visualiser. The user edits a triangle by its side lengths or by dragging
its vertices on a snapped grid. A step-by-step Heron's-formula panel shows
the arithmetic. The model covers the parts of the program that are logic
rather than GPU, window or GUI calls:

- **The `Triangle`** (`Triangles`). The validity check, vertex placement
  from three sides, `move_vertex`, side recomputation and the Heron area.
- **`HeronSteps::calculate`** (`Heron`). The calculator as defined in both
  `HeronPanel.hpp` and `heron.h`.
- **The editor's interaction logic** (`Interaction`):
  - grid snapping;
  - the screen→world map and its inverse;
  - first-hit vertex picking;
  - the left-button drag state machine;
  - the right-button pan.
- **The two 2D cameras** (`Cameras`). Projection bounds, scroll and
  keyboard zoom, and the recompute rule of each copy.
- **The shader helpers** (`Shaders`). The `#shader` source splitter, the
  compile/create conventions and the uniform-location cache.
- **Vertex buffer layouts** (`Layouts`). Element sizes, the `unsigned int`
  stride and the attribute offsets of `add_buffer`.
- **The GPU object wrappers** (`Handles`). Creation and idempotent
  `remove` over an abstract GL object table.
- **Mesh sizes and draw counts** (`Meshes`). Grid, circle and triangle
  meshes, the triangle buffer's dirty-flag upload, and the renderers'
  resource release.
- **The row flip of `Screenshot::save`** (`Screenshots`).

Geometry is over `real`. The C library functions `sqrt`, `acos`, `cos`,
`sin` and the constant π are fields of a `Libm` record passed as a
parameter. The predicates `SqrtSound` and `TrigSound` state the only facts
about them that the proofs use:
- `sqrt` is the non-negative square root;
- `cos(acos x) = x` on [−1, 1];
- cos² + sin² = 1.

C `round` (halfway cases away from zero) is defined explicitly.
`unsigned int` arithmetic wraps modulo 2^32 explicitly (`Base.WrapU32`).

GL state is the record `Handles.Gl`:
- the next name to hand out;
- the set of live names;
- the log of delete calls.

All object kinds draw their names from one counter, so a vertex array and
a buffer never share a name. Real GL keeps one name space per object
kind, where the first vertex array and the first buffer are typically
both 1. Four properties rely on the shared counter: the distinct names of
`Meshes.Init2D` and `Meshes.InitRenderer`, and the by-name delete-once
counts of `Meshes.ShutdownThenExitDeletesOnce` and
`Meshes.RendererReleasesAll`. Under per-kind name spaces they hold per
kind, not across kinds.

Mouse buttons, keys, the cursor position, the frame time, compile status
and `glGetUniformLocation` answers are inputs.

One observation that is not a defect: `update_sides` stores the side
opposite each vertex. For a triangle built from sides (a, b, c), the stored
sides therefore come out as [b, a, c] (`Triangles.CreateValid`).

## Model

| member | source | states |
|---|---|---|
| Base.WrapU32 | src/VertexBufferLayout.h:40 | the `unsigned int` result lies in [0, 2^32) and differs from the mathematical value by a multiple of 2^32; values in range are unchanged |
| Geometry.DistSq | src/Renderer.cpp:222-225 | `distance_squared` is never negative and is 0 for equal points |
| Geometry.DistSqSymmetric | src/Renderer/Renderer.cpp:223-226 | `distance_squared` is symmetric in its two points |
| Geometry.DistSqPositive | src/Renderer.cpp:222-225 | distinct points have a positive squared distance |
| Geometry.Round | src/main.cpp:54-55 | C `round`: the result is within 0.5 of x, and on a tie it is the integer farther from zero |
| Geometry.RadicandPositive | src/Triangle.cpp:51-55 | for sides meeting the strict triangle inequalities, s, s−a, s−b, s−c and the radicand s(s−a)(s−b)(s−c) are all positive |
| Geometry.HeronAreaIsHalfCross | src/Triangle.cpp:44-55 | when the sides are the true distances between three points, Heron's radicand is the square of half the cross product, so it is never negative |
| Triangles.ValidSidesPositive | src/Triangle.cpp:28-30 | a valid triangle has three positive sides |
| Triangles.UpdateArea | src/Triangle.cpp:51-55 | only the area changes; when the radicand of the stored sides is non-negative, the area is non-negative and squares to s(s−s0)(s−s1)(s−s2) |
| Triangles.UpdateSides | src/Triangle.cpp:44-49 | side i becomes the distance between the two vertices other than vertex i; a, b, c and the vertices are unchanged |
| Triangles.UpdateSidesArea | src/Triangle.cpp:44-55 | after side recomputation the area is non-negative and squares to Heron's radicand |
| Triangles.CosineAtOrigin | src/Triangle.cpp:17 | for a valid triangle the law-of-cosines argument of `acos` lies strictly inside (−1, 1) |
| Triangles.UpdateVertices | src/Triangle.cpp:11-20 | an invalid triangle is returned unchanged; a valid one gets vertex 0 at the origin and vertex 1 at (c, 0), with a, b, c unchanged |
| Triangles.PlacedSides | src/Triangle.cpp:11-20 | for a valid triangle the recomputed sides are [b, a, c] and the area is √(s(s−a)(s−b)(s−c)) > 0 |
| Triangles.ThirdVertexDistances | src/Triangle.cpp:14-19 | the placed vertices are at distances c (v0–v1), a (v0–v2) and b (v1–v2) |
| Triangles.Create | src/Triangle.cpp:5-9 | stores a, b, c; for sides failing the triangle inequalities the vertices, sides and area keep their initial zero values |
| Triangles.CreateValid | src/Triangle.cpp:5-20 | a triangle built from valid sides has sides [b, a, c] and a positive area |
| Triangles.MoveVertex | src/Triangle.cpp:22-26 | an index outside [0, 3) changes nothing; an in-range index overwrites exactly that vertex and keeps the other two and a, b, c, and re-measures every side as the distance between the other two new vertices |
| Triangles.MoveVertexArea | src/Triangle.cpp:22-26 | after a move, the area is that of the triangle the new vertices span (half the absolute cross product) |
| Heron.Calculate | src/HeronPanel.hpp:13-24 | a, b, c are untouched; `valid` iff the three strict triangle inequalities hold; invalid gives s = 0 and area 0; valid gives 2s = a + b + c |
| Heron.CalculatePositive | src/heron.h:12-23 | when valid, a, b, c, s−a, s−b, s−c and the area are positive and area² = s(s−a)(s−b)(s−c) |
| Heron.CalculateIdempotent | src/HeronPanel.hpp:13-24 | pressing Calculate again on the result changes nothing: the sides are kept, so validity, s and the area come out the same |
| Heron.SeededExample | src/main.cpp:177-178 | the seeded sides 3, 4, 5 give a valid triangle with s = 6 and area 6 |
| Heron.AgreesWithTriangle | src/HeronPanel.hpp:21-23 | for valid sides the calculator's area equals the area of the `Triangle` built from the same sides |
| Cameras.ProjectionFor | src/Camera.cpp:27-33 | the ortho bounds are symmetric, 20·zoom tall, with width/height equal to the window's aspect ratio, and depth ±1 |
| Cameras.UpdateMatrix | src/Renderer/Camera.cpp:28-33 | stores the window size, leaves position and zoom alone, and leaves the projection and view in step with them |
| Cameras.UpdateMatrixSynced | src/Camera.cpp:27-33 | recomputing with the stored window size does nothing to a camera already in step |
| Cameras.Create | src/Camera.cpp:9-15 | zoom 1, the given position and window size, matrices in step, and the camera becomes the scroll receiver |
| Cameras.Destroy | src/Camera.cpp:17-19 | the receiver is cleared exactly when it is this camera; otherwise it is kept |
| Cameras.DestroyOnlySelf | src/Renderer/Camera.cpp:11-21 | destroying an older camera does not unregister the newer receiver |
| Cameras.Clamp | src/Camera.cpp:74-75 | the result lies in [0.1, 10], equals z inside that range, and the nearer bound outside it |
| Cameras.Scroll | src/Camera.cpp:70-77 | no receiver or a zero offset changes nothing; otherwise zoom becomes clamp(zoom − 0.1·offset) and the matrices are recomputed |
| Cameras.Direction | src/Camera.cpp:40-63 | a key pair contributes +1, −1, or 0 when both or neither are held |
| Cameras.Move | src/Camera.cpp:35-64 | position and zoom change by the key directions times 5·zoom·dt; keyboard zoom is not clamped; nothing else changes |
| Cameras.OppositeKeysCancel | src/Renderer/Camera.cpp:42-60 | holding each opposite pair equally leaves position and zoom unchanged |
| Cameras.ProcessInputs | src/Camera.cpp:35-67 | matrices are recomputed iff one of W, A, S, D, Q, E is held |
| Cameras.ProcessInputs2D | src/Renderer/Camera.cpp:35-63 | matrices are recomputed iff the position or the zoom actually changed |
| Cameras.InputsAgreeWhenSynced | src/Renderer/Camera.cpp:62 | for a camera whose matrices are in step, the two recompute rules give the same camera |
| Cameras.StaleCameraDiffers | src/Renderer/Camera.cpp:62 | after `set_zoom`, pressing W and S together resynchronises `Camera` but leaves `Camera2D` stale |
| Cameras.KeyboardZoomUnclamped | src/Camera.cpp:57-59 | Q at zoom 0.1 with dt 0.4 takes the zoom to −0.1, outside the scroll range |
| Cameras.SetPosition | src/Camera.cpp:99-101 | only the position changes |
| Cameras.SetZoom | src/Renderer/Camera.cpp:99-101 | only the zoom changes |
| Cameras.SetZoomStales | src/Camera.cpp:103-105 | a setter does not recompute: a new zoom leaves the matrices out of step |
| Cameras.SetPositionStales | src/Renderer/Camera.cpp:95-97 | a new position leaves the matrices out of step |
| Interaction.SnapAxis | src/main.cpp:54-62 | each coordinate moves by strictly less than 0.2 and ends either unchanged or on round(x) |
| Interaction.SnapToGrid | src/main.cpp:51-66 | both axes move by less than 0.2 |
| Interaction.SnapAxisNearest | src/main.cpp:57-59 | a coordinate within 0.2 of a grid line snaps to that line |
| Interaction.SnapAxisFar | src/main.cpp:52 | a coordinate at least 0.2 from every grid line is unchanged |
| Interaction.SnapIdempotent | src/main.cpp:51-66 | snapping a snapped point returns it unchanged |
| Interaction.SnapExample | src/main.cpp:51-66 | (0.05, −1.9) snaps to (0, −2); (2.3, 0.1) snaps to (2.3, 0) |
| Interaction.ScreenToWorldNdc | src/main.cpp:76-92 | `screen_to_world` maps a pixel to its NDC value times the projection's half-width (x) or half-height (y), that is 10·zoom (· aspect for x), plus the camera position |
| Interaction.ScreenToWorldCorners | src/main.cpp:76-92 | pixel (0,0) maps to the camera's top-left projection bound, the far corner to the bottom-right, and the window centre to the camera position |
| Interaction.WorldScreenRoundTrip | src/main.cpp:80-86 | mapping a world point to the screen and back returns it (non-zero zoom) |
| Interaction.ScreenWorldRoundTrip | src/main.cpp:80-86 | mapping a pixel to the world and back returns it, so the map is a bijection |
| Interaction.RightButton | src/main.cpp:212-238 | the pressed flag follows the button; the first pressed frame only records the anchor; later frames move the camera and recompute with the current window size; zoom is unchanged |
| Interaction.PanKeepsGrabbedPoint | src/main.cpp:219-230 | after a pan step the world point under the cursor is the one that was under the anchor |
| Interaction.PannedCamera | src/main.cpp:221-229 | while the button is held the camera moves to the position shifted against the cursor motion, at unchanged zoom |
| Interaction.PanMapsBack | src/main.cpp:218-226 | a camera shifted by the pan formula and zoomed the same sees the new cursor pixel where the old camera saw the anchor pixel |
| Interaction.Pick | src/main.cpp:245-251 | returns the lowest index whose squared distance to the mouse is below 0.09, or −1 iff there is none |
| Interaction.FindVertex | src/main.cpp:244-252 | the loop with `break` selects the same vertex as `Pick` |
| Interaction.LeftButton | src/main.cpp:241-264 | the invariant (dragging iff selected ∈ {0,1,2}, else −1) is kept; release goes idle; a press while idle picks; while dragging, the triangle changes only if the snapped position differs from the selected vertex, and then it is exactly `move_vertex` of the selected vertex to the snapped position |
| Interaction.Highlighted | src/main.cpp:276-277 | nothing is highlighted when idle; while dragging, exactly the dragged vertex is |
| Interaction.DragScenario | src/main.cpp:241-264 | press at (0.1, 0.1) next to vertex 0 at the origin, hold over (2.1, 0.95), release: the vertex lands on (2, 1), and the state is idle again |
| Layouts.SizeOfType | src/VertexBufferLayout.h:18-25 | FLOAT and UNSIGNED_INT give 4, UNSIGNED_BYTE gives 1, any other type 0 |
| Layouts.MakeElement | src/Renderer/VertexBufferLayout.hpp:15-19 | type and count are stored unchanged; normalized is narrowed to a byte |
| Layouts.Push | src/VertexBufferLayout.h:37-53 | appends one element and adds count·size to the stride modulo 2^32, keeping the stride equal to the wrapped byte total |
| Layouts.PushFloat | src/VertexBufferLayout.h:38-41 | appends (FLOAT, n, FALSE) and adds 4n |
| Layouts.PushUInt | src/VertexBufferLayout.h:44-47 | appends (UNSIGNED_INT, n, FALSE) and adds 4n |
| Layouts.PushUByte | src/VertexBufferLayout.h:50-53 | appends (UNSIGNED_BYTE, n, TRUE) and adds n |
| Layouts.BuildConsistent | src/VertexBufferLayout.h:30-53 | a layout built from the empty layout by pushes has one element per push, in push order, each with the type, count and normalized flag of its push (float and unsigned int not normalized, unsigned byte normalized), and its stride is the wrapped sum of count·size |
| Layouts.PushKeepsPrefix | src/VertexBufferLayout.h:39-51 | later pushes keep the earlier elements and their order |
| Layouts.AddBuffer | src/Renderer/VertexArray.cpp:15-26 | one attribute per element, numbered in order, each with its element's count, type and flag, the layout's stride and the wrapped prefix sum as offset; the final offset equals a consistent stride |
| Layouts.MeshLayout | src/Renderer/Renderer.cpp:140-141 | a mesh layout is one two-float element with stride 8 at offset 0 |
| Handles.Generate | src/Renderer/VertexArray.cpp:7-9 | a fresh non-zero name, never live or deleted before, becomes live |
| Handles.Remove | src/Renderer/VertexArray.cpp:36-41 | a non-zero name is deleted and zeroed; a zero name is left alone |
| Handles.RemoveIdempotent | src/Renderer/VertexBuffer.cpp:24-29 | a second `remove` changes nothing |
| Handles.RemoveTimesDeletesOnce | src/Renderer/VertexBuffer.cpp:12-14 | any number (≥ 1) of `remove` calls, the destructor's included, deletes the name exactly once |
| Handles.NewVertexBuffer | src/Renderer/VertexBuffer.cpp:6-10 | a fresh live name and exactly `size` bytes uploaded |
| Handles.RemoveVertexBuffer | src/Renderer/VertexBuffer.cpp:24-28 | deletes a non-zero handle and zeroes it; a zero handle deletes nothing |
| Handles.NewIndexBuffer | src/Renderer/IndexBuffer.cpp:5-11 | stores the count and uploads count·4 bytes under a fresh name |
| Handles.RemoveIndexBuffer | src/Renderer/IndexBuffer.cpp:25-30 | deletes a non-zero handle once and zeroes it, keeping the count |
| Handles.NewVertexArray | src/Renderer/VertexArray.cpp:7-9 | a fresh non-zero live name |
| Handles.RemoveVertexArray | src/Renderer/VertexArray.cpp:36-41 | deletes a non-zero handle and zeroes it |
| Handles.ExplicitRemoveThenDestroy | src/Renderer/VertexArray.cpp:11-13 | explicit `remove` then destruction deletes the name once and leaves it dead |
| Meshes.GenerateGrid | src/Renderer/Renderer.cpp:123-136 | the loop builds the reference grid: 41 steps of 8 floats, 328 floats, 164 vertices |
| Meshes.GridPattern | src/Renderer.cpp:77-87 | step k holds the vertical segment x = i from y = −20 to 20, then the horizontal segment y = i from x = −20 to 20 |
| Meshes.DrawGrid | src/Renderer.cpp:141-151 | (20 − (−20) + 1)·4 = 164 vertices, exactly the mesh |
| Meshes.GridOverrunAsWritten | src/Renderer/Renderer.cpp:190 | drawing 168 vertices does not fit the 164-vertex mesh: it overruns by 4 |
| Meshes.DrawGrid2D | src/Renderer/Renderer.cpp:183-192 | the corrected count fits and equals the mesh's vertex count |
| Meshes.CircleMesh | src/Renderer.cpp:119-125 | 32 segments give 33 points |
| Meshes.CircleMeshOnUnitCircle | src/Renderer.cpp:122-125 | every point lies on the unit circle |
| Meshes.CircleDrawFits | src/Renderer.cpp:165 | drawing 32 vertices fits the 33-point mesh |
| Meshes.GenerateCircle | src/Renderer/Renderer.cpp:161-170 | 2 + 2(n + 1) floats for n segments, with the centre (0, 0) first |
| Meshes.GeneratedCircleRadius | src/Renderer/Renderer.cpp:166-170 | every rim point lies at distance `radius` from the centre |
| Meshes.CircleDraw2DFits | src/Renderer/Renderer.cpp:71 | `GenerateCircle(1, 32)` has 68 floats, and `DrawCircle`'s 34 vertices match it exactly |
| Meshes.TriangleDrawFits | src/Renderer/Renderer.cpp:146-156 | the initial triangle's 3 vertices fill the 6-float, 24-byte buffer that a 3-vertex draw reads |
| Meshes.DrawTriangle | src/Renderer.cpp:177-190 | the buffer is re-uploaded with the vertices only when an update is flagged; otherwise it is unchanged |
| Meshes.BufferTracksTriangle | src/Renderer/Renderer.cpp:101-121 | if every frame whose vertices differ from the previous buffer flags an update, then after any frames the buffer holds the latest vertices |
| Meshes.Init2D | src/Renderer/Renderer.cpp:41-73 | six distinct fresh live names; grid, circle and triangle buffers get 328·4, (2 + 2·33)·4 = 68·4 and 6·4 bytes |
| Meshes.Shutdown2D | src/Renderer/Renderer.cpp:75-86 | every handle is zeroed |
| Meshes.Release2D | src/Renderer/VertexBuffer.cpp:12-14 | the member destructors of `s_data`, in reverse declaration order, each `remove` once: every non-zero handle is appended to the delete log in that order and leaves the live set; zeroed handles add nothing (VertexArray's destructor at src/Renderer/VertexArray.cpp:11-13 is the same) |
| Meshes.ShutdownLog | src/Renderer/Renderer.cpp:79-85 | for six non-zero handles, Shutdown deletes the grid, triangle and circle arrays, then the buffers in the same order, and none stays live |
| Meshes.ShutdownThenExitDeletesOnce | src/Renderer/Renderer.cpp:75-86 | Shutdown followed by the destructors at exit deletes each of the six objects exactly once |
| Meshes.InitRenderer | src/Renderer.cpp:26-30 | the program and the six mesh objects get distinct live names |
| Meshes.DestroyRendererAsWritten | src/Renderer.cpp:18-24 | the destructor as written deletes the grid VAO and VBO, the triangle VAO and VBO, and the program, in that order, and only those leave the live set |
| Meshes.CircleLeakAsWritten | src/Renderer.cpp:18-24 | after the destructor as written, the circle's vertex array and buffer are still live |
| Meshes.DestroyRenderer | src/Renderer.cpp:18-24 | the corrected destructor deletes all seven names, in order |
| Meshes.RendererReleasesAll | src/Renderer.cpp:15-30 | with the corrected destructor, each of the seven objects is deleted exactly once and none stays live |
| Shaders.ContainsIff | src/Shader.cpp:23 | the substring test holds iff the pattern occurs at some index |
| Shaders.MarkerType | src/Shader.cpp:24-34 | "vertex" wins over "fragment"; "fragment" alone selects fragment; any other marker selects NONE |
| Shaders.ParseShader | src/Shader.cpp:9-46 | the line loop produces exactly the reference sections |
| Shaders.ModeIsLastMarker | src/Shader.cpp:20-36 | the mode is VERTEX or FRAGMENT iff the nearest marker so far selected it |
| Shaders.KeptIsSection | src/Shader.cpp:37-39 | a line is kept in a section iff it is not a marker and the nearest marker before it selected that section |
| Shaders.NoMarkerNoSource | src/Shader.cpp:20-45 | input with no marker yields empty vertex and fragment sources |
| Shaders.MarkerNotKept | src/Shader.cpp:23-36 | a marker line is never emitted |
| Shaders.AppendedToCurrent | src/Shader.cpp:38-39 | a non-marker line is appended, with '\n', to the current section only; in NONE mode it is dropped |
| Shaders.PreambleDiscarded | src/Shader.cpp:20-38 | lines before the first marker change neither section |
| Shaders.VertexTakesPriority | src/Shader.cpp:24-30 | "#shader fragment vertex" opens the vertex section |
| Shaders.GetUniformLocation | src/Shader.cpp:126-134 | afterwards the cache maps the name to the returned value, and other entries are kept; a cached name returns its cached value; an uncached one returns what GL answers for it; GL is queried iff the name was not cached; a warning iff the query answered −1 |
| Shaders.RepeatLookupCached | src/Renderer.cpp:198-208 | a repeat lookup returns the cached value without querying GL or warning |
| Shaders.MissingUniformCached | src/Shader.cpp:130-132 | a −1 answer is warned about once and cached |
| Shaders.CacheTransparent | src/Shader.cpp:126-134 | while the cache agrees with GL, every lookup returns GL's answer and the cache keeps agreeing |
| Shaders.EachNameQueriedOnce | src/Renderer.cpp:198-208 | over any sequence of lookups, GL is asked about each uncached name exactly once and never about a cached one |
| Shaders.CompileShader | src/Shader.cpp:87-107 | returns a fresh live name when compilation succeeds; on failure it deletes the new object and returns 0 |
| Shaders.CreateShader | src/Shader.cpp:110-124 | returns a fresh live program whatever the compile outcomes |
| Shaders.CreateShaderNoLeak | src/Shader.cpp:110-124 | only the program stays live; exactly two distinct shader objects are deleted, neither of them the program |
| Screenshots.FlipRow | src/Screenshot.cpp:17-19 | output row y of the flip is input row height−1−y |
| Screenshots.FlipInvolution | src/Screenshot.cpp:16-19 | flipping twice returns the original buffer |
| Screenshots.RowsDisjoint | src/Screenshot.cpp:18 | distinct rows occupy disjoint byte ranges |
| Screenshots.CopyInBounds | src/Screenshot.cpp:18 | both `memcpy` ranges of width·3 bytes lie inside the width·height·3 buffers |
| Screenshots.CopyRow | src/Screenshot.cpp:18 | one copy writes output row y with input row height−1−y and leaves every other row alone |
| Screenshots.FlipRows | src/Screenshot.cpp:16-19 | the loop over a zeroed buffer of the same size yields the row-reversed buffer |
| Screenshots.FlipPixels | src/Screenshot.cpp:11-19 | both buffers hold width·height·3 bytes, and output row y equals input row height−1−y |

## Left out

- **GL, GLFW, GLEW, ImGui and glm calls.** These are foreign state. Handles are naturals; uploads, draws and deletes are values and logs. Matrices are represented as the four ortho bounds and the −position view offset.
- **`bind`/`unbind`** of the buffers and the vertex array only issue GL calls. They change no member, so the model has nothing to state about them.
- **The accessors of the layout** only read its members.
- **IEEE floats.** All geometry is over `real`:
  - float rounding, the float/double casts in `screen_to_world`, and the exact `!=` comparisons are not modelled;
  - so the model claims no bit-exact outcomes;
  - `sqrt`, `acos`, `cos`, `sin` and π are abstract, constrained only by the facts listed above.
- **The window size used by `screen_to_world`** is whatever window size is passed in. In the frame loop it is the one captured at start-up, which goes stale after a resize. `Interaction.PanKeepsGrabbedPoint` assumes it equals the current size.
- **Zero sizes.** `Cameras.ProjectionFor`, `Cameras.UpdateMatrix`, `Interaction.ScreenToWorld` and `Interaction.RightButton` require non-zero window sizes. The source would divide by zero there and produce infinities or NaN. The round trips also require a non-zero zoom, which keyboard zoom can reach.
- **Zero segments.** `Meshes.GenerateCircle` requires a non-zero segment count. The source divides by it.
- **Pixel row alignment.** `Screenshots.FlipPixels` takes the read pixels as tightly packed rows of width·3 bytes. The source never sets `GL_PACK_ALIGNMENT` to 1, so under GL's default alignment of 4, when width·3 is not a multiple of 4 and there are at least two rows, `glReadPixels` would pad each row and write past the width·height·3 vector, and the flip's unpadded stride would misplace rows. The model does not represent that padding.
- **`Layouts.AddBuffer`** requires fewer than 2^32 elements. The source's `unsigned int` loop index wraps before reaching a larger element count, so that loop never ends, and the model does not represent non-termination.
- **`Screenshots.FlipPixels`** requires the size width·height·3 to fit in a C `int` and both dimensions to be non-negative. The source's `int` product would otherwise overflow, or the vector constructor would fail. The PNG encoder and `glReadPixels` are not modelled; the read pixels are a parameter.
- **`parse_shader` file handling.** Opening the file and `getline` splitting are not modelled: the input is the sequence of lines. A file that cannot be opened reads as no lines.
- **`compile_shader` side effects.** Its info-log printing and its `alloca` are left out. `CreateShader` models the program's and shaders' names, not attach/link/validate.
- **`Shader::remove`** is declared in src/Renderer/Shader.hpp. src/Renderer/Shader.cpp is not part of this model. So `Meshes.Shutdown2D` does not model the removal of the shader, and `Meshes.InitRenderer` models `load_shaders` only by the program name it creates.
- **`Triangle::is_update_needed`** belongs to a `Triangle` header that is not part of this model. The dirty flag is therefore an input of `Meshes.DrawTriangle`. `Meshes.BufferTracksTriangle` states what that flag must satisfy.
- **`push<T>` in src/Renderer/VertexBufferLayout.hpp** is only declared there. Its definition is not part of this model; `Layouts.Push` follows the definitions in src/VertexBufferLayout.h.
- **The shared name counter of `Handles.Gl`** hands out names across object kinds, as one counter. Real GL keeps separate name spaces per kind, so names of different kinds can coincide. `Meshes.Init2D`, `Meshes.InitRenderer`, `Meshes.ShutdownThenExitDeletesOnce` and `Meshes.RendererReleasesAll` rely on the single counter for their distinctness and delete-once statements. The model does not tag names or delete calls with their object kind.
- **The `ASSERT` in the `IndexBuffer` constructor** checks a platform type size. It is not modelled.
- **The triangle buffer of the old renderer** is allocated with null data (src/Renderer.cpp:110). The model records only its 6-float size.
- **The rest of the frame loop.** The model does not compose a whole frame. Input, pan, drag and draw are modelled as separate steps, and the ImGui panels, V-Sync toggling, `limit_fps`, src/Saves.cpp, src/Application.cpp and src/scoped_timer.h are left out.
- **The `g_camera` static** is an explicit optional receiver id.

## Findings

| source | as written | input that shows it | evidently intended | confidence | as-written member | corrected member |
|---|---|---|---|---|---|---|
| src/Renderer/Renderer.cpp:190 | `DrawGrid` draws 168 vertices | the grid built at src/Renderer/Renderer.cpp:126-136 has 41·8 = 328 floats, i.e. 164 vertices, so the draw reads 4 vertices past the buffer | draw the 164 vertices the mesh holds, as src/Renderer.cpp:149 does | high (not executed) | Meshes.GridOverrunAsWritten | Meshes.DrawGrid2D |
| src/Renderer.cpp:18-24 | the destructor deletes the grid and triangle VAO/VBO and the program, but not `circleVAO`/`circleVBO` | any `Renderer` after `init()` followed by destruction leaves the circle objects live | release all seven GL objects | high (not executed) | Meshes.CircleLeakAsWritten | Meshes.DestroyRenderer |

=== FILE: base.dfy ===
/** Small vocabulary shared by every module: an option type and the C
    unsigned integer types whose wrap-around the renderer relies on. */
module Base {

  /** A value that may be absent (the repository uses null pointers and
      sentinel values for this). */
  datatype Option<T> = None | Some(value: T)

  /** 2^32: the modulus of C `unsigned int` arithmetic. */
  const U32_MODULUS: int := 0x1_0000_0000

  /** C `unsigned int`. */
  type u32 = x: int | 0 <= x < U32_MODULUS

  /** C `unsigned char`. */
  type byte = x: int | 0 <= x < 256

  /** The value an `unsigned int` holds after storing the mathematical
      value `x` into it (reduction modulo 2^32). */
  function WrapU32(x: int): (r: u32)
    ensures 0 <= x < U32_MODULUS ==> r == x
    ensures (r - x) % U32_MODULUS == 0
  {
    x % U32_MODULUS
  }

  /** Reducing a partial sum before adding more does not change the
      wrapped total: `unsigned int` accumulation is addition modulo 2^32. */
  lemma WrapU32Add(x: int, y: int)
    ensures WrapU32(WrapU32(x) + y) == WrapU32(x + y)
  {
    var q := x / U32_MODULUS;
    assert x == q * U32_MODULUS + WrapU32(x);
    assert WrapU32(x) + y == (x + y) - q * U32_MODULUS;
    ModuloShift(x + y, -q);
  }

  /** Adding whole multiples of 2^32 does not change a wrapped value. */
  lemma {:induction false} ModuloShift(v: int, k: int)
    ensures (v + k * U32_MODULUS) % U32_MODULUS == v % U32_MODULUS
    decreases if k < 0 then -k else k
  {
    if k > 0 {
      ModuloShift(v, k - 1);
      assert v + k * U32_MODULUS == (v + (k - 1) * U32_MODULUS) + U32_MODULUS;
    } else if k < 0 {
      ModuloShift(v, k + 1);
      assert v + k * U32_MODULUS == (v + (k + 1) * U32_MODULUS) - U32_MODULUS;
    }
  }
}

=== FILE: camera.dfy ===
/** The 2D orthographic camera. src/Camera.cpp (`Camera`) and
    src/Renderer/Camera.cpp (`Heron::Camera2D`) define the same state and
    the same constructor, destructor, `update_matrix`, scroll callback and
    setters; they differ only in when `process_inputs` recomputes the
    matrices, so that member is modelled twice. The projection matrix is
    represented by its six ortho bounds and the view matrix by its
    translation. */
module Cameras {
  import opened Base
  import opened Geometry

  const MIN_ZOOM: real := 0.1
  const MAX_ZOOM: real := 10.0
  /** Zoom change per unit of scroll offset. */
  const SCROLL_STEP: real := 0.1
  /** Keyboard speed per unit of zoom and second. */
  const MOVE_SPEED: real := 5.0
  /** Half the visible height at zoom 1. */
  const HALF_EXTENT: real := 10.0

  /** The arguments of `glm::ortho`. */
  datatype Ortho = Ortho(left: real, right: real, bottom: real, top: real,
                         near: real, far: real)

  /** The projection `update_matrix` builds for a zoom and a window size:
      centred on the camera, 20·zoom world units high, as wide as the
      window's aspect ratio demands, depth [-1, 1]. */
  function ProjectionFor(zoom: real, windowSize: Vec2): (r: Ortho)
    requires windowSize.y != 0.0
    ensures r.left == -r.right && r.bottom == -r.top
    ensures r.top - r.bottom == 2.0 * HALF_EXTENT * zoom
    ensures (r.right - r.left) * windowSize.y == (r.top - r.bottom) * windowSize.x
    ensures r.near == -1.0 && r.far == 1.0
  {
    var aspect := windowSize.x / windowSize.y;
    AspectScaling(2.0 * HALF_EXTENT * zoom, windowSize.x, windowSize.y);
    Ortho(-HALF_EXTENT * zoom * aspect, HALF_EXTENT * zoom * aspect,
          -HALF_EXTENT * zoom, HALF_EXTENT * zoom, -1.0, 1.0)
  }

  /** Half the width of the world rectangle the camera shows. */
  function HalfWidth(zoom: real, windowSize: Vec2): real
    requires windowSize.y != 0.0
  {
    HALF_EXTENT * zoom * (windowSize.x / windowSize.y)
  }

  /** Half the height of the world rectangle the camera shows. */
  function HalfHeight(zoom: real): real {
    HALF_EXTENT * zoom
  }

  /** The projection's right and top bounds are the half extents. */
  lemma ProjectionHalfExtents(zoom: real, windowSize: Vec2)
    requires windowSize.y != 0.0
    ensures ProjectionFor(zoom, windowSize).right == HalfWidth(zoom, windowSize)
    ensures ProjectionFor(zoom, windowSize).top == HalfHeight(zoom)
  {
  }

  /** h · (x / y) · y = h · x. */
  lemma AspectScaling(h: real, x: real, y: real)
    requires y != 0.0
    ensures h * (x / y) * y == h * x
  {
    var q := x / y;
    assert q * y == x;
    assert h * q * y == h * (q * y);
  }

  datatype Camera = Camera(id: nat, position: Vec2, zoom: real, lastWindowSize: Vec2,
                           projection: Ortho, view: Vec2)

  /** The matrices reflect the current position and zoom at the last
      window size. */
  predicate Synced(c: Camera) {
    && c.lastWindowSize.y != 0.0
    && c.view == Neg(c.position)
    && c.projection == ProjectionFor(c.zoom, c.lastWindowSize)
  }

  /** `update_matrix`: remember the window size and rebuild both matrices. */
  function UpdateMatrix(c: Camera, windowSize: Vec2): (r: Camera)
    requires windowSize.y != 0.0
    ensures Synced(r) && r.lastWindowSize == windowSize
    ensures r.id == c.id && r.position == c.position && r.zoom == c.zoom
  {
    c.(lastWindowSize := windowSize, view := Neg(c.position),
       projection := ProjectionFor(c.zoom, windowSize))
  }

  /** Rebuilding the matrices of a synced camera at its own window size
      changes nothing. */
  lemma UpdateMatrixSynced(c: Camera)
    requires Synced(c)
    ensures UpdateMatrix(c, c.lastWindowSize) == c
  {
  }

  /** The process-wide `g_camera` pointer: the id of the camera the scroll
      callback acts on, if any. */
  type Receiver = Option<nat>

  /** The constructor: zoom 1, the given position and window size, fresh
      matrices, and the new camera becomes the scroll receiver. */
  function Create(id: nat, windowSize: Vec2, position: Vec2): (r: (Camera, Receiver))
    requires windowSize.y != 0.0
    ensures r.0.id == id && r.0.position == position && r.0.zoom == 1.0
    ensures r.0.lastWindowSize == windowSize && Synced(r.0)
    ensures r.1 == Some(id)
  {
    var c := Camera(id, position, 1.0, windowSize, Ortho(0.0, 0.0, 0.0, 0.0, 0.0, 0.0), Origin);
    (UpdateMatrix(c, windowSize), Some(id))
  }

  /** The destructor: clears the receiver only when it is this camera. */
  function Destroy(receiver: Receiver, c: Camera): (r: Receiver)
    ensures r == None || r == receiver
    ensures r != receiver <==> receiver == Some(c.id)
  {
    if receiver == Some(c.id) then None else receiver
  }

  /** Destroying a camera that was superseded as receiver leaves the newer
      camera registered; destroying the newer one unregisters it. */
  lemma DestroyOnlySelf(first: nat, second: nat, ws: Vec2, p: Vec2)
    requires ws.y != 0.0 && first != second
    ensures var (a, _) := Create(first, ws, p);
            var (b, g) := Create(second, ws, p);
            Destroy(g, a) == Some(second) && Destroy(g, b) == None
  {
  }

  /** `std::min(std::max(z, 0.1), 10.0)`. */
  function Clamp(z: real): (r: real)
    ensures MIN_ZOOM <= r <= MAX_ZOOM
    ensures MIN_ZOOM <= z <= MAX_ZOOM ==> r == z
    ensures z < MIN_ZOOM ==> r == MIN_ZOOM
    ensures MAX_ZOOM < z ==> r == MAX_ZOOM
  {
    var lower := if z < MIN_ZOOM then MIN_ZOOM else z;
    if MAX_ZOOM < lower then MAX_ZOOM else lower
  }

  /** `scroll_callback` on the receiver `target` (None when `g_camera` is
      null): nothing happens without a receiver or with a zero offset;
      otherwise the zoom moves against the offset, is clamped into
      [0.1, 10], and the matrices are rebuilt. */
  function Scroll(target: Option<Camera>, yOffset: real): (r: Option<Camera>)
    requires target.Some? ==> target.value.lastWindowSize.y != 0.0
    ensures target.None? || yOffset == 0.0 ==> r == target
    ensures target.Some? && yOffset != 0.0 ==>
            && r.Some?
            && MIN_ZOOM <= r.value.zoom <= MAX_ZOOM
            && Synced(r.value)
            && r.value.id == target.value.id
            && r.value.position == target.value.position
            && r.value.lastWindowSize == target.value.lastWindowSize
    ensures target.Some? && yOffset != 0.0 ==>
            r.Some? && r.value.zoom == Clamp(target.value.zoom - SCROLL_STEP * yOffset)
  {
    if target.None? || yOffset == 0.0 then target
    else
      var c := target.value;
      Some(UpdateMatrix(c.(zoom := Clamp(c.zoom - SCROLL_STEP * yOffset)), c.lastWindowSize))
  }

  /** The keys `process_inputs` polls. */
  datatype Keys = Keys(w: bool, a: bool, s: bool, d: bool, q: bool, e: bool)

  predicate AnyKey(k: Keys) {
    k.w || k.a || k.s || k.d || k.q || k.e
  }

  /** +1 for the first key alone, -1 for the second alone, 0 otherwise. */
  function Direction(plus: bool, minus: bool): (r: real)
    ensures r == 0.0 <==> plus == minus
    ensures r == 1.0 <==> plus && !minus
    ensures r == -1.0 <==> minus && !plus
  {
    (if plus then 1.0 else 0.0) - (if minus then 1.0 else 0.0)
  }

  /** The position and zoom change both `process_inputs` variants apply:
      W/S move up/down, D/A right/left, E/Q zoom in/out, each by
      5 · zoom · dt with the zoom as it was before the keys. Keyboard zoom
      is not clamped. Nothing else changes. */
  function Move(c: Camera, k: Keys, dt: real): (r: Camera)
    ensures r.(position := c.position, zoom := c.zoom) == c
    ensures var speed := MOVE_SPEED * c.zoom * dt;
            && r.position.x == c.position.x + Direction(k.d, k.a) * speed
            && r.position.y == c.position.y + Direction(k.w, k.s) * speed
            && r.zoom == c.zoom + Direction(k.e, k.q) * speed
  {
    var speed := MOVE_SPEED * c.zoom * dt;
    var y1 := if k.w then c.position.y + speed else c.position.y;
    var y2 := if k.s then y1 - speed else y1;
    var x1 := if k.a then c.position.x - speed else c.position.x;
    var x2 := if k.d then x1 + speed else x1;
    var z1 := if k.q then c.zoom - speed else c.zoom;
    var z2 := if k.e then z1 + speed else z1;
    c.(position := Vec2(x2, y2), zoom := z2)
  }

  /** Opposite keys pressed together cancel: the camera does not move. */
  lemma OppositeKeysCancel(c: Camera, k: Keys, dt: real)
    requires k.w == k.s && k.a == k.d && k.q == k.e
    ensures Move(c, k, dt) == c
  {
  }

  /** `Camera::process_inputs`: the matrices are rebuilt iff some key is
      pressed. */
  function ProcessInputs(c: Camera, k: Keys, dt: real): (r: Camera)
    requires c.lastWindowSize.y != 0.0
    ensures r.position == Move(c, k, dt).position && r.zoom == Move(c, k, dt).zoom
    ensures r.id == c.id && r.lastWindowSize == c.lastWindowSize
    ensures AnyKey(k) ==> Synced(r)
    ensures !AnyKey(k) ==> r == c
  {
    var moved := Move(c, k, dt);
    if AnyKey(k) then UpdateMatrix(moved, moved.lastWindowSize) else moved
  }

  /** `Camera2D::process_inputs`: the matrices are rebuilt iff the
      position or the zoom actually changed. */
  function ProcessInputs2D(c: Camera, k: Keys, dt: real): (r: Camera)
    requires c.lastWindowSize.y != 0.0
    ensures r.position == Move(c, k, dt).position && r.zoom == Move(c, k, dt).zoom
    ensures r.id == c.id && r.lastWindowSize == c.lastWindowSize
    ensures r.position != c.position || r.zoom != c.zoom ==> Synced(r)
    ensures r.position == c.position && r.zoom == c.zoom ==> r == c
  {
    var moved := Move(c, k, dt);
    if moved.position != c.position || moved.zoom != c.zoom then
      UpdateMatrix(moved, moved.lastWindowSize)
    else moved
  }

  /** On a camera whose matrices are current the two variants agree. */
  lemma InputsAgreeWhenSynced(c: Camera, k: Keys, dt: real)
    requires Synced(c)
    ensures ProcessInputs(c, k, dt) == ProcessInputs2D(c, k, dt)
  {
    var moved := Move(c, k, dt);
    if moved.position == c.position && moved.zoom == c.zoom {
      assert moved == c;
      UpdateMatrixSynced(c);
    }
  }

  /** They differ on a stale camera (after `set_zoom`, say): holding W and
      S together makes `Camera` rebuild its matrices while `Camera2D`
      keeps the stale ones. */
  lemma StaleCameraDiffers(ws: Vec2)
    requires ws.y != 0.0
    ensures var c := SetZoom(Create(0, ws, Origin).0, 2.0);
            var k := Keys(true, false, true, false, false, false);
            && !Synced(c)
            && Synced(ProcessInputs(c, k, 0.5))
            && !Synced(ProcessInputs2D(c, k, 0.5))
  {
    var c := SetZoom(Create(0, ws, Origin).0, 2.0);
    SetZoomStales(Create(0, ws, Origin).0, 2.0);
    OppositeKeysCancel(c, Keys(true, false, true, false, false, false), 0.5);
  }

  /** Keyboard zoom is not clamped: Q at zoom 0.1 for 0.4 s drives the zoom
      below the scroll range, to -0.1. */
  lemma KeyboardZoomUnclamped(ws: Vec2)
    requires ws.y != 0.0
    ensures var c := SetZoom(Create(0, ws, Origin).0, MIN_ZOOM);
            ProcessInputs(c, Keys(false, false, false, false, true, false), 0.4).zoom == -0.1
  {
  }

  /** `set_position`: only the position changes; the matrices are not
      rebuilt. */
  function SetPosition(c: Camera, p: Vec2): (r: Camera)
    ensures r.position == p && r.(position := c.position) == c
  {
    c.(position := p)
  }

  /** `set_zoom`: only the zoom changes; the matrices are not rebuilt. */
  function SetZoom(c: Camera, z: real): (r: Camera)
    ensures r.zoom == z && r.(zoom := c.zoom) == c
  {
    c.(zoom := z)
  }

  /** Since the setters do not rebuild the matrices, changing the zoom of
      a synced camera leaves it stale. */
  lemma SetZoomStales(c: Camera, z: real)
    requires Synced(c) && z != c.zoom
    ensures !Synced(SetZoom(c, z))
  {
    assert ProjectionFor(z, c.lastWindowSize).top != ProjectionFor(c.zoom, c.lastWindowSize).top;
  }

  /** Likewise for the position. */
  lemma SetPositionStales(c: Camera, p: Vec2)
    requires Synced(c) && p != c.position
    ensures !Synced(SetPosition(c, p))
  {
    assert Neg(p) != Neg(c.position) by {
      if p.x != c.position.x {
        assert Neg(p).x != Neg(c.position).x;
      } else {
        assert Neg(p).y != Neg(c.position).y;
      }
    }
  }
}

=== FILE: geometry.dfy ===
/** Plane geometry over the reals, standing in for glm::vec2 and the
    C math library. IEEE rounding is not modelled: every quantity is an
    exact real, and the transcendental functions are supplied by the
    caller as a `Libm` record constrained only by the facts the proofs use. */
module Geometry {

  /** glm::vec2 */
  datatype Vec2 = Vec2(x: real, y: real)

  const Origin: Vec2 := Vec2(0.0, 0.0)

  function Sub(p: Vec2, q: Vec2): Vec2 {
    Vec2(p.x - q.x, p.y - q.y)
  }

  function Neg(p: Vec2): Vec2 {
    Vec2(-p.x, -p.y)
  }

  function Abs(x: real): (r: real)
    ensures 0.0 <= r
    ensures r == x || r == -x
  {
    if x < 0.0 then -x else x
  }

  /** `distance_squared(a, b)`: the squared Euclidean distance, the
      square-root-free test the vertex picker uses. */
  function DistSq(p: Vec2, q: Vec2): (r: real)
    ensures 0.0 <= r
    ensures p == q ==> r == 0.0
  {
    (p.x - q.x) * (p.x - q.x) + (p.y - q.y) * (p.y - q.y)
  }

  /** Distinct points are a positive squared distance apart. */
  lemma DistSqPositive(p: Vec2, q: Vec2)
    requires p != q
    ensures 0.0 < DistSq(p, q)
  {
    if p.x != q.x {
      SquarePositive(p.x - q.x);
      SquareNonNegative(p.y - q.y);
    } else {
      SquarePositive(p.y - q.y);
      SquareNonNegative(p.x - q.x);
    }
  }

  /** The product a * b behind a name: facts stated about `Product(x, x)`
      reach the solver as linear facts about an atom, where the same fact
      about `x * x` would be rewritten away before it could be used. */
  function Product(a: real, b: real): real {
    a * b
  }

  lemma ProductPositive(a: real, b: real)
    requires 0.0 < a && 0.0 < b
    ensures 0.0 < Product(a, b)
  {
  }

  lemma ProductNonNegative(a: real, b: real)
    requires 0.0 <= a && 0.0 <= b
    ensures 0.0 <= Product(a, b)
  {
  }

  /** A non-zero real has a positive square. */
  lemma SquarePositive(x: real)
    requires x != 0.0
    ensures 0.0 < Product(x, x)
  {
    if x < 0.0 {
      ProductPositive(-x, -x);
      assert Product(-x, -x) == Product(x, x);
    } else {
      ProductPositive(x, x);
    }
  }

  lemma SquareNonNegative(x: real)
    ensures 0.0 <= Product(x, x)
  {
    if x < 0.0 {
      ProductNonNegative(-x, -x);
      assert Product(-x, -x) == Product(x, x);
    } else {
      ProductNonNegative(x, x);
    }
  }

  /** Squaring is strictly increasing on the non-negative reals. */
  lemma SquareMonotonic(r: real, x: real)
    requires 0.0 <= r < x
    ensures r * r < x * x
  {
    ProductPositive(x - r, x + r);
    assert Product(x - r, x + r) == x * x - r * r;
  }

  /** The squared distance does not depend on the order of its arguments. */
  lemma DistSqSymmetric(p: Vec2, q: Vec2)
    ensures DistSq(p, q) == DistSq(q, p)
  {
    assert (p.x - q.x) * (p.x - q.x) == (q.x - p.x) * (q.x - p.x);
    assert (p.y - q.y) * (p.y - q.y) == (q.y - p.y) * (q.y - p.y);
  }

  /** The library functions the repository calls: `sqrt`, `acos`, `cos`,
      `sin` and glm::pi. They are parameters of the model, not
      definitions of it. */
  datatype Libm = Libm(sqrt: real -> real, acos: real -> real,
                       cos: real -> real, sin: real -> real, pi: real)

  /** `sqrt` returns the non-negative square root of a non-negative argument. */
  ghost predicate SqrtSound(m: Libm) {
    forall x: real :: 0.0 <= x ==> 0.0 <= m.sqrt(x) && m.sqrt(x) * m.sqrt(x) == x
  }

  /** `cos` inverts `acos` on [-1, 1], and cos² + sin² = 1 everywhere. */
  ghost predicate TrigSound(m: Libm) {
    && (forall t: real :: -1.0 <= t <= 1.0 ==> m.cos(m.acos(t)) == t)
    && (forall a: real :: m.cos(a) * m.cos(a) + m.sin(a) * m.sin(a) == 1.0)
  }

  /** Half the absolute value of c squares to a quarter of c². */
  lemma HalfAbsSquared(c: real)
    ensures (Abs(c) / 2.0) * (Abs(c) / 2.0) == c * c / 4.0
  {
    if c < 0.0 {
      assert Abs(c) == -c;
    }
  }

  /** The square root of a square is the absolute value of its base. */
  lemma SqrtOfSquare(m: Libm, x: real)
    requires SqrtSound(m)
    requires 0.0 <= x
    ensures m.sqrt(x * x) == x
  {
    var r := m.sqrt(x * x);
    assert 0.0 <= x * x;
    assert 0.0 <= r && r * r == x * x;
    if r < x {
      SquareMonotonic(r, x);
    } else if x < r {
      SquareMonotonic(x, r);
    }
  }

  /** A point whose squared distance is x² (x non-negative) is x away. */
  lemma DistanceOfSquare(m: Libm, p: Vec2, q: Vec2, x: real)
    requires SqrtSound(m) && 0.0 <= x && DistSq(p, q) == x * x
    ensures Distance(m, p, q) == x
  {
    SqrtOfSquare(m, x);
  }

  /** `cos` undoes `acos` on [-1, 1]. */
  lemma CosAcos(m: Libm, t: real)
    requires TrigSound(m) && -1.0 <= t <= 1.0
    ensures m.cos(m.acos(t)) == t
  {
  }

  /** cos² + sin² = 1. */
  lemma UnitCircle(m: Libm, angle: real)
    requires TrigSound(m)
    ensures m.cos(angle) * m.cos(angle) + m.sin(angle) * m.sin(angle) == 1.0
  {
  }

  /** A positive argument has a positive square root. */
  lemma SqrtPositive(m: Libm, x: real)
    requires SqrtSound(m)
    requires 0.0 < x
    ensures 0.0 < m.sqrt(x)
  {
    assert m.sqrt(x) * m.sqrt(x) == x;
  }

  /** `glm::distance(p, q)`. */
  function Distance(m: Libm, p: Vec2, q: Vec2): real {
    m.sqrt(DistSq(p, q))
  }

  /** Squaring a distance gives back the squared distance. */
  lemma DistanceSquared(m: Libm, p: Vec2, q: Vec2)
    requires SqrtSound(m)
    ensures 0.0 <= Distance(m, p, q)
    ensures Distance(m, p, q) * Distance(m, p, q) == DistSq(p, q)
  {
  }

  lemma DistanceSymmetric(m: Libm, p: Vec2, q: Vec2)
    ensures Distance(m, p, q) == Distance(m, q, p)
  {
    DistSqSymmetric(p, q);
  }

  /** C `round`: the nearest integer, halfway cases away from zero. */
  function Round(x: real): (r: int)
    ensures Abs(x - r as real) <= 0.5
    ensures Abs(x - r as real) == 0.5 ==> Abs(x) < Abs(r as real)
  {
    if 0.0 <= x then (x + 0.5).Floor else -((-x + 0.5).Floor)
  }

  /** Heron's radicand s(s-x)(s-y)(s-z) with s the semiperimeter. */
  function HeronRadicand(x: real, y: real, z: real): real {
    var s := (x + y + z) / 2.0;
    s * (s - x) * (s - y) * (s - z)
  }

  /** The strict triangle inequality on three side lengths. */
  predicate TriangleInequality(x: real, y: real, z: real) {
    x + y > z && x + z > y && y + z > x
  }

  /** Sides satisfying the strict triangle inequality are positive, each
      semiperimeter difference is positive, and so is the radicand. */
  lemma {:induction false} RadicandPositive(x: real, y: real, z: real)
    requires TriangleInequality(x, y, z)
    ensures 0.0 < x && 0.0 < y && 0.0 < z
    ensures var s := (x + y + z) / 2.0; 0.0 < s - x && 0.0 < s - y && 0.0 < s - z
    ensures 0.0 < HeronRadicand(x, y, z)
  {
    var s := (x + y + z) / 2.0;
    assert 0.0 < s;
    var p := s * (s - x);
    assert 0.0 < p;
    var q := p * (s - y);
    assert 0.0 < q;
    assert 0.0 < q * (s - z);
  }

  /** Heron's radicand is unchanged by permuting the sides. */
  lemma HeronRadicandSymmetric(x: real, y: real, z: real)
    ensures HeronRadicand(x, y, z) == HeronRadicand(y, x, z)
    ensures HeronRadicand(x, y, z) == HeronRadicand(x, z, y)
  {
    var s := (x + y + z) / 2.0;
    assert s == (y + x + z) / 2.0 && s == (x + z + y) / 2.0;
    assert s * (s - x) * (s - y) * (s - z) == s * (s - y) * (s - x) * (s - z);
    assert s * (s - x) * (s - y) * (s - z) == s * (s - x) * (s - z) * (s - y);
  }

  /** Twice the signed area of the triangle p0 p1 p2 (the 2D cross product). */
  function Cross(p0: Vec2, p1: Vec2, p2: Vec2): real {
    var u := Sub(p1, p0);
    var v := Sub(p2, p0);
    u.x * v.y - u.y * v.x
  }

  /** Sixteen times Heron's radicand is the product of the perimeter and
      the three differences (y + z - x), (x - y + z), (x + y - z). */
  lemma HeronRadicandFactored(x: real, y: real, z: real)
    ensures 16.0 * HeronRadicand(x, y, z)
         == ((x + y + z) * (y + z - x)) * ((x - y + z) * (x + y - z))
  {
    var s := (x + y + z) / 2.0;
    assert 2.0 * s == x + y + z;
    assert 2.0 * (s - x) == y + z - x;
    assert 2.0 * (s - y) == x - y + z;
    assert 2.0 * (s - z) == x + y - z;
  }

  /** Heron's radicand in terms of the squared sides:
      16 s(s-x)(s-y)(s-z) = 4 y² z² - (y² + z² - x²)². */
  lemma HeronRadicandSquares(x: real, y: real, z: real)
    ensures var w := y * y + z * z - x * x;
            16.0 * HeronRadicand(x, y, z) == 4.0 * (y * y) * (z * z) - w * w
  {
    var P, Q := (x + y + z) * (y + z - x), (x - y + z) * (x + y - z);
    var d, w := 2.0 * (y * z), y * y + z * z - x * x;
    HeronRadicandFactored(x, y, z);
    OuterPair(x, y, z);
    InnerPair(x, y, z);
    ProductOfEquals(P, Q, d + w, d - w);
    DifferenceOfSquares(d, w);
    SquareOfProduct(y, z);
  }

  lemma ProductOfEquals(a: real, b: real, c: real, e: real)
    requires a == c && b == e
    ensures a * b == c * e
  {
  }

  lemma SquareOfProduct(y: real, z: real)
    ensures (2.0 * (y * z)) * (2.0 * (y * z)) == 4.0 * (y * y) * (z * z)
  {
  }

  lemma OuterPair(x: real, y: real, z: real)
    ensures (x + y + z) * (y + z - x) == 2.0 * (y * z) + (y * y + z * z - x * x)
  {
  }

  lemma InnerPair(x: real, y: real, z: real)
    ensures (x - y + z) * (x + y - z) == 2.0 * (y * z) - (y * y + z * z - x * x)
  {
  }

  /** (a + b)(a - b) = a² - b². */
  lemma DifferenceOfSquares(a: real, b: real)
    ensures (a + b) * (a - b) == a * a - b * b
  {
  }

  /** The squared sides of the triangle p0 p1 p2 satisfy
      4 Y Z - (Y + Z - X)² = 4 (u × v)², with u, v the edges from p0. */
  lemma SquaredSidesIdentity(p0: Vec2, p1: Vec2, p2: Vec2)
    ensures var X, Y, Z := DistSq(p1, p2), DistSq(p0, p2), DistSq(p0, p1);
            4.0 * Y * Z - (Y + Z - X) * (Y + Z - X)
              == 4.0 * Cross(p0, p1, p2) * Cross(p0, p1, p2)
  {
    var u, v := Sub(p1, p0), Sub(p2, p0);
    var X, Y, Z := DistSq(p1, p2), DistSq(p0, p2), DistSq(p0, p1);
    DistSqSymmetric(p0, p2);
    DistSqSymmetric(p0, p1);
    assert Y == v.x * v.x + v.y * v.y;
    assert Z == u.x * u.x + u.y * u.y;
    assert X == (u.x - v.x) * (u.x - v.x) + (u.y - v.y) * (u.y - v.y);
    var dot := u.x * v.x + u.y * v.y;
    assert Y + Z - X == 2.0 * dot;
    LagrangeIdentity(u, v);
  }

  /** Heron's radicand is a quarter of C² whenever the squared sides
      satisfy 4 Y Z - (Y + Z - X)² = 4 C². */
  lemma HeronFromSquares(x: real, y: real, z: real, X: real, Y: real, Z: real, c: real)
    requires x * x == X && y * y == Y && z * z == Z
    requires 4.0 * Y * Z - (Y + Z - X) * (Y + Z - X) == 4.0 * c * c
    ensures HeronRadicand(x, y, z) == c * c / 4.0
  {
    HeronRadicandSquares(x, y, z);
    ProductOfEquals(Y, Z, y * y, z * z);
    var w := y * y + z * z - x * x;
    ProductOfEquals(Y + Z - X, Y + Z - X, w, w);
  }

  /** The three distances between p0, p1 and p2 square to the squared
      distances. */
  lemma SidesSquared(m: Libm, p0: Vec2, p1: Vec2, p2: Vec2)
    ensures SqrtSound(m) ==>
            && Distance(m, p1, p2) * Distance(m, p1, p2) == DistSq(p1, p2)
            && Distance(m, p0, p2) * Distance(m, p0, p2) == DistSq(p0, p2)
            && Distance(m, p0, p1) * Distance(m, p0, p1) == DistSq(p0, p1)
  {
    if SqrtSound(m) {
      DistanceSquared(m, p1, p2);
      DistanceSquared(m, p0, p2);
      DistanceSquared(m, p0, p1);
    }
  }

  /** For side lengths x, y, z of the triangle p0 p1 p2 (x opposite p0,
      y opposite p1, z opposite p2), Heron's radicand is a quarter of the
      squared cross product, hence never negative. */
  lemma HeronRadicandOfSides(p0: Vec2, p1: Vec2, p2: Vec2, x: real, y: real, z: real)
    requires x * x == DistSq(p1, p2) && y * y == DistSq(p0, p2) && z * z == DistSq(p0, p1)
    ensures HeronRadicand(x, y, z) == Cross(p0, p1, p2) * Cross(p0, p1, p2) / 4.0
  {
    SquaredSidesIdentity(p0, p1, p2);
    HeronFromSquares(x, y, z, DistSq(p1, p2), DistSq(p0, p2), DistSq(p0, p1), Cross(p0, p1, p2));
  }

  /** |u|²|v|² = (u·v)² + (u×v)². */
  lemma LagrangeIdentity(u: Vec2, v: Vec2)
    ensures (u.x * u.x + u.y * u.y) * (v.x * v.x + v.y * v.y)
         == (u.x * v.x + u.y * v.y) * (u.x * v.x + u.y * v.y)
          + (u.x * v.y - u.y * v.x) * (u.x * v.y - u.y * v.x)
  {
  }

  /** Heron's formula applied to the side lengths of any three points
      yields half the absolute cross product: the area of the triangle. */
  lemma HeronAreaIsHalfCross(m: Libm, p0: Vec2, p1: Vec2, p2: Vec2)
    requires SqrtSound(m)
    ensures 0.0 <= HeronRadicand(Distance(m, p1, p2), Distance(m, p0, p2), Distance(m, p0, p1))
    ensures m.sqrt(HeronRadicand(Distance(m, p1, p2), Distance(m, p0, p2), Distance(m, p0, p1)))
         == Abs(Cross(p0, p1, p2)) / 2.0
  {
    SidesSquared(m, p0, p1, p2);
    HeronRadicandOfSides(p0, p1, p2, Distance(m, p1, p2), Distance(m, p0, p2), Distance(m, p0, p1));
    var h := Abs(Cross(p0, p1, p2)) / 2.0;
    HalfAbsSquared(Cross(p0, p1, p2));
    SquareNonNegative(Cross(p0, p1, p2));
    assert HeronRadicand(Distance(m, p1, p2), Distance(m, p0, p2), Distance(m, p0, p1)) == h * h;
    SqrtOfSquare(m, h);
  }
}

=== FILE: handles.dfy ===
/** The lifecycle of the GPU object wrappers `VertexBuffer`
    (src/Renderer/VertexBuffer.cpp), `IndexBuffer`
    (src/Renderer/IndexBuffer.cpp) and `VertexArray`
    (src/Renderer/VertexArray.cpp). OpenGL's object table is modelled as a
    counter of handed-out names, the set of live names and the log of
    delete calls; every wrapper holds a name that `remove` deletes once
    and then zeroes. */
module Handles {
  import opened Base

  /** The part of the GL state the wrappers touch. */
  datatype Gl = Gl(next: nat, live: set<nat>, deleted: seq<nat>)

  /** Name 0 is never handed out, and every live or deleted name was
      handed out before. */
  predicate GlInv(g: Gl) {
    && 0 < g.next
    && (forall n | n in g.live :: 0 < n < g.next)
    && (forall i | 0 <= i < |g.deleted| :: g.deleted[i] < g.next)
  }

  const InitialGl: Gl := Gl(1, {}, [])

  /** `glGen*`: a fresh non-zero name that becomes live. */
  function Generate(g: Gl): (r: (nat, Gl))
    requires GlInv(g)
    ensures GlInv(r.1)
    ensures r.0 != 0 && r.0 !in g.live && r.0 !in g.deleted
    ensures r.1.live == g.live + {r.0} && r.1.deleted == g.deleted
  {
    (g.next, g.(next := g.next + 1, live := g.live + {g.next}))
  }

  /** `glDelete*` on one name. */
  function Delete(g: Gl, name: nat): (r: Gl)
    ensures r.live == g.live - {name} && r.deleted == g.deleted + [name]
    ensures GlInv(g) && name < g.next ==> GlInv(r)
  {
    g.(live := g.live - {name}, deleted := g.deleted + [name])
  }

  /** How often `name` has been deleted. */
  function Deletes(g: Gl, name: nat): nat {
    multiset(g.deleted)[name]
  }

  /** No element occurs twice in `s`. */
  predicate Distinct<T(==)>(s: seq<T>) {
    forall i, j | 0 <= i < j < |s| :: s[i] != s[j]
  }

  /** Putting a new element in front keeps a sequence free of repetitions. */
  lemma DistinctPrepend<T>(x: T, s: seq<T>)
    requires x !in s && Distinct(s)
    ensures Distinct([x] + s)
  {
    var t := [x] + s;
    forall i, j | 0 <= i < j < |t|
      ensures t[i] != t[j]
    {
      assert t[j] == s[j - 1];
      if i > 0 {
        assert t[i] == s[i - 1];
      }
    }
  }

  /** A name occurs once in a sequence without repetitions that holds it. */
  lemma {:induction false} DistinctCount(s: seq<nat>, n: nat)
    requires Distinct(s)
    ensures multiset(s)[n] == (if n in s then 1 else 0)
  {
    if |s| > 0 {
      assert Distinct(s[1..]) by {
        forall i, j | 0 <= i < j < |s[1..]| ensures s[1..][i] != s[1..][j] {
          assert s[1..][i] == s[i + 1] && s[1..][j] == s[j + 1];
        }
      }
      DistinctCount(s[1..], n);
      assert s == [s[0]] + s[1..];
      if n == s[0] {
        assert n !in s[1..] by {
          forall k | 0 <= k < |s[1..]| ensures s[1..][k] != n {
            assert s[1..][k] == s[k + 1];
          }
        }
      }
    }
  }

  /** Deleting a batch of distinct names, none of which was deleted
      before, deletes each of them exactly once. */
  lemma DeletedOnceAfter(g: Gl, log: seq<nat>, n: nat)
    requires Distinct(log) && n in log && n !in g.deleted
    ensures Deletes(g.(deleted := g.deleted + log), n) == 1
  {
    DistinctCount(log, n);
    assert multiset(g.deleted + log) == multiset(g.deleted) + multiset(log);
  }

  /** What one `remove` of `id` adds to the delete log: nothing for a
      zeroed handle. */
  function Deleted(id: nat): seq<nat> {
    if id == 0 then [] else [id]
  }

  /** The name one `remove` of `id` takes out of the live set. */
  function Gone(id: nat): set<nat> {
    if id == 0 then {} else {id}
  }

  /** The shared body of the three `remove` members: delete a non-zero
      name and zero it; a zero name is left alone. */
  function Remove(id: nat, g: Gl): (r: (nat, Gl))
    ensures r.0 == 0
    ensures id != 0 ==> r.1 == Delete(g, id)
    ensures id == 0 ==> r.1 == g
    ensures r.1.deleted == g.deleted + Deleted(id) && r.1.live == g.live - Gone(id)
  {
    if id != 0 then (0, Delete(g, id)) else (id, g)
  }

  /** A second `remove` does nothing. */
  lemma RemoveIdempotent(id: nat, g: Gl)
    ensures var (id1, g1) := Remove(id, g);
            Remove(id1, g1) == (id1, g1)
  {
  }

  /** `remove` called `n` times in a row. */
  function RemoveTimes(id: nat, g: Gl, n: nat): (nat, Gl) {
    if n == 0 then (id, g) else var (id1, g1) := Remove(id, g); RemoveTimes(id1, g1, n - 1)
  }

  /** However often `remove` runs (the destructor runs it once more), the
      name is deleted exactly once and nothing else is deleted. */
  lemma {:induction false} RemoveTimesDeletesOnce(id: nat, g: Gl, n: nat)
    requires id != 0 && 1 <= n
    ensures RemoveTimes(id, g, n) == (0, Delete(g, id))
  {
    if n > 1 {
      RemoveZero(Delete(g, id), n - 1);
    }
  }

  /** Removing a zeroed handle any number of times changes nothing. */
  lemma {:induction false} RemoveZero(g: Gl, n: nat)
    ensures RemoveTimes(0, g, n) == (0, g)
  {
    if n > 0 {
      RemoveZero(g, n - 1);
    }
  }

  /** `VertexBuffer`: its name and the bytes its constructor uploaded. */
  datatype VertexBuffer = VertexBuffer(id: nat, uploaded: nat)

  /** The constructor: a fresh name, then `glBufferData` of exactly
      `size` bytes. */
  function NewVertexBuffer(g: Gl, size: u32): (r: (VertexBuffer, Gl))
    requires GlInv(g)
    ensures GlInv(r.1) && r.0.id != 0 && r.0.id !in g.live && r.0.id in r.1.live
    ensures r.0.uploaded == size
  {
    var (name, g1) := Generate(g);
    (VertexBuffer(name, size), g1)
  }

  function RemoveVertexBuffer(vb: VertexBuffer, g: Gl): (r: (VertexBuffer, Gl))
    ensures r.0 == vb.(id := 0)
    ensures r.1 == (if vb.id != 0 then Delete(g, vb.id) else g)
  {
    var (id, g1) := Remove(vb.id, g);
    (vb.(id := id), g1)
  }

  /** `IndexBuffer`: its name, `m_count`, and the bytes uploaded. */
  datatype IndexBuffer = IndexBuffer(id: nat, count: u32, uploaded: nat)

  /** `sizeof(unsigned int)`. */
  const UINT_BYTES: nat := 4

  /** The constructor: stores the count and uploads count ·
      sizeof(unsigned int) bytes (computed in `size_t`, so no wrap). */
  function NewIndexBuffer(g: Gl, count: u32): (r: (IndexBuffer, Gl))
    requires GlInv(g)
    ensures GlInv(r.1) && r.0.id != 0 && r.0.id !in g.live && r.0.id in r.1.live
    ensures r.0.count == count && r.0.uploaded == UINT_BYTES * count
  {
    var (name, g1) := Generate(g);
    (IndexBuffer(name, count, count * UINT_BYTES), g1)
  }

  /** `IndexBuffer::remove`, the same shared `remove` body as
      `RemoveVertexBuffer`; the count is kept. */
  function RemoveIndexBuffer(ib: IndexBuffer, g: Gl): (r: (IndexBuffer, Gl))
    ensures r.0 == ib.(id := 0)
    ensures r.1 == (if ib.id != 0 then Delete(g, ib.id) else g)
  {
    var (id, g1) := Remove(ib.id, g);
    (ib.(id := id), g1)
  }

  datatype VertexArray = VertexArray(id: nat)

  function NewVertexArray(g: Gl): (r: (VertexArray, Gl))
    requires GlInv(g)
    ensures GlInv(r.1) && r.0.id != 0 && r.0.id !in g.live && r.0.id in r.1.live
  {
    var (name, g1) := Generate(g);
    (VertexArray(name), g1)
  }

  function RemoveVertexArray(va: VertexArray, g: Gl): (r: (VertexArray, Gl))
    ensures r.0 == VertexArray(0)
    ensures r.1 == (if va.id != 0 then Delete(g, va.id) else g)
  {
    var (id, g1) := Remove(va.id, g);
    (VertexArray(id), g1)
  }

  /** Create a vertex array, `remove` it explicitly, then destroy it: the
      name is deleted once, and is no longer live. */
  lemma ExplicitRemoveThenDestroy(g: Gl)
    requires GlInv(g)
    ensures var (va, g1) := NewVertexArray(g);
            var (va2, g2) := RemoveVertexArray(va, g1);
            var (_, g3) := RemoveVertexArray(va2, g2);
            && Deletes(g3, va.id) == 1
            && va.id !in g3.live
            && g3.deleted == g.deleted + [va.id]
  {
  }
}

=== FILE: heron.dfy ===
/** `HeronSteps`, the step-by-step Heron calculator behind the GUI panel.
    src/HeronPanel.hpp and src/heron.h define the same struct with the
    same `calculate`; this module models it once. */
module Heron {
  import opened Geometry
  import Triangles

  datatype HeronSteps = HeronSteps(a: real, b: real, c: real,
                                   semiPerimeter: real, area: real, valid: bool)

  /** `calculate`: decide validity; an invalid triple zeroes the
      semiperimeter and the area, a valid one fills in s = (a + b + c) / 2
      and Heron's area. */
  function Calculate(m: Libm, h: HeronSteps): (r: HeronSteps)
    ensures r.a == h.a && r.b == h.b && r.c == h.c
    ensures r.valid <==> TriangleInequality(h.a, h.b, h.c)
    ensures !r.valid ==> r.semiPerimeter == 0.0 && r.area == 0.0
    ensures r.valid ==> 2.0 * r.semiPerimeter == h.a + h.b + h.c
  {
    var valid := TriangleInequality(h.a, h.b, h.c);
    if !valid then
      h.(semiPerimeter := 0.0, area := 0.0, valid := false)
    else
      h.(semiPerimeter := (h.a + h.b + h.c) / 2.0, area := m.sqrt(HeronRadicand(h.a, h.b, h.c)),
         valid := true)
  }

  /** For a valid triple the sides, the three factors s - a, s - b, s - c
      and the area are all positive, and the area squares to
      s(s - a)(s - b)(s - c). */
  lemma CalculatePositive(m: Libm, h: HeronSteps)
    requires SqrtSound(m)
    ensures var r := Calculate(m, h);
            r.valid ==>
              && 0.0 < r.a && 0.0 < r.b && 0.0 < r.c
              && 0.0 < r.semiPerimeter - r.a && 0.0 < r.semiPerimeter - r.b
              && 0.0 < r.semiPerimeter - r.c
              && 0.0 < r.area
              && r.area * r.area == HeronRadicand(r.a, r.b, r.c)
  {
    if TriangleInequality(h.a, h.b, h.c) {
      RadicandPositive(h.a, h.b, h.c);
      SqrtPositive(m, HeronRadicand(h.a, h.b, h.c));
    }
  }

  /** Calculating again changes nothing. */
  lemma CalculateIdempotent(m: Libm, h: HeronSteps)
    ensures Calculate(m, Calculate(m, h)) == Calculate(m, h)
  {
  }

  /** The panel's seeded sides 3, 4, 5 give s = 6 and area 6. */
  lemma SeededExample(m: Libm)
    requires SqrtSound(m)
    ensures var r := Calculate(m, HeronSteps(3.0, 4.0, 5.0, 0.0, 0.0, false));
            r.valid && r.semiPerimeter == 6.0 && r.area == 6.0
  {
    assert HeronRadicand(3.0, 4.0, 5.0) == 6.0 * 6.0;
    SqrtOfSquare(m, 6.0);
  }

  /** The calculator and the triangle view agree: for sides that form a
      triangle, the calculator's area is the area of the triangle built
      from the same sides. */
  lemma AgreesWithTriangle(m: Libm, a: real, b: real, c: real, s0: real, area0: real, v0: bool)
    requires SqrtSound(m) && TrigSound(m) && TriangleInequality(a, b, c)
    ensures Calculate(m, HeronSteps(a, b, c, s0, area0, v0)).area
         == Triangles.Create(m, a, b, c).area
  {
    Triangles.PlacedSides(m, Triangles.Triangle(a, b, c, 0.0,
                           [Origin, Origin, Origin], [0.0, 0.0, 0.0]));
  }
}

=== FILE: interaction.dfy ===
/** The mouse interaction of the main loop in src/main.cpp: grid snapping,
    the screen-to-world mapping, right-button panning and left-button
    vertex dragging. GLFW polling becomes explicit inputs: the button
    states, the cursor position and the window size are parameters. */
module Interaction {
  import opened Geometry
  import opened Cameras
  import Triangles

  const GRID_SIZE: real := 1.0
  const SNAP_THRESHOLD: real := 0.2
  /** A vertex is grabbed when the cursor is within 0.3 world units. */
  const PICK_RADIUS_SQ: real := 0.09
  /** Twice the half extent of the camera's view. */
  const PAN_SCALE: real := 20.0

  // ---------------------------------------------------------------- snapping

  /** One axis of `snap_to_grid`: replace the coordinate by the nearest
      grid line when that line is closer than the threshold. */
  function SnapAxis(x: real): (r: real)
    ensures Abs(r - x) < SNAP_THRESHOLD
    ensures r == x || r == Round(x) as real
  {
    var grid := Round(x / GRID_SIZE) as real * GRID_SIZE;
    if Abs(x - grid) < SNAP_THRESHOLD then grid else x
  }

  function SnapToGrid(p: Vec2): (r: Vec2)
    ensures Abs(r.x - p.x) < SNAP_THRESHOLD && Abs(r.y - p.y) < SNAP_THRESHOLD
  {
    Vec2(SnapAxis(p.x), SnapAxis(p.y))
  }

  /** Rounding an integer gives it back. */
  lemma RoundInteger(n: int)
    ensures Round(n as real) == n
  {
  }

  /** The grid line with index n. */
  function GridLine(n: int): real {
    n as real * GRID_SIZE
  }

  /** A coordinate within the threshold of some grid line snaps onto that
      line. */
  lemma SnapAxisNearest(x: real, n: int)
    requires Abs(x - GridLine(n)) < SNAP_THRESHOLD
    ensures SnapAxis(x) == GridLine(n)
  {
    var nearest := Round(x / GRID_SIZE);
    assert x / GRID_SIZE == x && GridLine(n) == n as real;
    CloseIntegers(n, nearest);
  }

  /** Two integers less than one apart are equal. */
  lemma CloseIntegers(a: int, b: int)
    requires Abs(a as real - b as real) < 1.0
    ensures a == b
  {
  }

  /** A coordinate that is at least the threshold away from every grid
      line is left alone. */
  lemma SnapAxisFar(x: real)
    requires forall n: int :: SNAP_THRESHOLD <= Abs(x - GridLine(n))
    ensures SnapAxis(x) == x
  {
    assert SNAP_THRESHOLD <= Abs(x - GridLine(Round(x)));
  }

  /** Snapping a snapped position changes nothing. */
  lemma SnapIdempotent(p: Vec2)
    ensures SnapToGrid(SnapToGrid(p)) == SnapToGrid(p)
  {
    SnapAxisIdempotent(p.x);
    SnapAxisIdempotent(p.y);
  }

  lemma SnapAxisIdempotent(x: real)
    ensures SnapAxis(SnapAxis(x)) == SnapAxis(x)
  {
    var r := SnapAxis(x);
    if r == Round(x) as real {
      RoundInteger(Round(x));
      SnapAxisNearest(r, Round(x));
    }
  }

  /** A point near a grid crossing lands on it; a coordinate 0.3 from the
      grid stays where it is. */
  lemma SnapExample()
    ensures SnapToGrid(Vec2(0.05, -1.9)) == Vec2(0.0, -2.0)
    ensures SnapToGrid(Vec2(2.3, 0.1)) == Vec2(2.3, 0.0)
  {
    SnapAxisNearest(0.05, 0);
    SnapAxisNearest(-1.9, -2);
    SnapAxisNearest(0.1, 0);
    assert Round(2.3) == 2;
  }

  // ------------------------------------------------------ screen <-> world

  /** World x of pixel column `mx` in a window `w` by `h` pixels, at zoom
      `z` with the camera at x = `cx`. */
  function WorldX(mx: real, w: real, h: real, z: real, cx: real): real
    requires w != 0.0 && h != 0.0
  {
    (2.0 * mx / w - 1.0) * (HALF_EXTENT * z) * (w / h) + cx
  }

  /** World y of pixel row `my` (rows grow downwards). */
  function WorldY(my: real, h: real, z: real, cy: real): real
    requires h != 0.0
  {
    (1.0 - (2.0 * my) / h) * (HALF_EXTENT * z) + cy
  }

  /** `screen_to_world`: window pixel (origin top left, y down) to world
      coordinates under the camera's position and zoom. */
  function ScreenToWorld(cam: Camera, windowSize: Vec2, mouse: Vec2): Vec2
    requires windowSize.x != 0.0 && windowSize.y != 0.0
  {
    Vec2(WorldX(mouse.x, windowSize.x, windowSize.y, cam.zoom, cam.position.x),
         WorldY(mouse.y, windowSize.y, cam.zoom, cam.position.y))
  }

  /** (n · k) · a = n · (k · a). */
  lemma ScaleAssociates(n: real, k: real, a: real)
    ensures n * k * a == n * (k * a)
  {
  }

  /** A pixel lands at its NDC value times the half extents of the view
      the projection shows, offset by the camera position. */
  lemma ScreenToWorldNdc(cam: Camera, windowSize: Vec2, mouse: Vec2)
    requires windowSize.x != 0.0 && windowSize.y != 0.0
    ensures var r := ScreenToWorld(cam, windowSize, mouse);
            && r.x == (2.0 * mouse.x / windowSize.x - 1.0) * HalfWidth(cam.zoom, windowSize) + cam.position.x
            && r.y == (1.0 - 2.0 * mouse.y / windowSize.y) * HalfHeight(cam.zoom) + cam.position.y
            && HalfWidth(cam.zoom, windowSize) == ProjectionFor(cam.zoom, windowSize).right
            && HalfHeight(cam.zoom) == ProjectionFor(cam.zoom, windowSize).top
  {
    ScaleAssociates(2.0 * mouse.x / windowSize.x - 1.0, HALF_EXTENT * cam.zoom, windowSize.x / windowSize.y);
    ProjectionHalfExtents(cam.zoom, windowSize);
  }

  /** The window's corners map to the corners of the rectangle the
      camera's projection shows, and its centre to the camera position. */
  lemma ScreenToWorldCorners(cam: Camera, windowSize: Vec2)
    requires windowSize.x != 0.0 && windowSize.y != 0.0
    ensures var o := ProjectionFor(cam.zoom, windowSize);
            && ScreenToWorld(cam, windowSize, Origin)
               == Vec2(cam.position.x + o.left, cam.position.y + o.top)
            && ScreenToWorld(cam, windowSize, windowSize)
               == Vec2(cam.position.x + o.right, cam.position.y + o.bottom)
            && ScreenToWorld(cam, windowSize, Vec2(windowSize.x / 2.0, windowSize.y / 2.0))
               == cam.position
  {
    HalfOfWhole(windowSize.x);
    HalfOfWhole(windowSize.y);
  }

  lemma HalfOfWhole(w: real)
    requires w != 0.0
    ensures 2.0 * (w / 2.0) / w == 1.0 && 2.0 * w / w == 2.0 && 2.0 * 0.0 / w == 0.0
  {
  }

  /** Pixel column of world x `px`; the inverse of WorldX. */
  function ScreenX(px: real, w: real, h: real, z: real, cx: real): real
    requires w != 0.0 && h != 0.0 && z != 0.0
  {
    NonZeroProduct(HALF_EXTENT * z, w / h);
    ((px - cx) / (HALF_EXTENT * z * (w / h)) + 1.0) * w / 2.0
  }

  /** Pixel row of world y `py`; the inverse of WorldY. */
  function ScreenY(py: real, h: real, z: real, cy: real): real
    requires h != 0.0 && z != 0.0
  {
    (1.0 - (py - cy) / (HALF_EXTENT * z)) * h / 2.0
  }

  /** The inverse of ScreenToWorld, for a camera with non-zero zoom. */
  function WorldToScreen(cam: Camera, windowSize: Vec2, p: Vec2): Vec2
    requires windowSize.x != 0.0 && windowSize.y != 0.0 && cam.zoom != 0.0
  {
    Vec2(ScreenX(p.x, windowSize.x, windowSize.y, cam.zoom, cam.position.x),
         ScreenY(p.y, windowSize.y, cam.zoom, cam.position.y))
  }

  lemma NonZeroProduct(a: real, b: real)
    requires a != 0.0 && b != 0.0
    ensures a * b != 0.0
  {
  }

  /** (n · k) / k = n. */
  lemma CancelScale(n: real, k: real)
    requires k != 0.0
    ensures (n * k) / k == n && (n / k) * k == n
  {
  }

  /** Mapping q in NDC to a pixel and back gives q. */
  lemma CancelPixel(q: real, w: real)
    requires w != 0.0
    ensures 2.0 * ((q + 1.0) * w / 2.0) / w - 1.0 == q
    ensures ((2.0 * q / w - 1.0) + 1.0) * w / 2.0 == q
  {
    var t := q + 1.0;
    assert 2.0 * (t * w / 2.0) == t * w;
    CancelScale(t, w);
    assert 2.0 * q / w - 1.0 + 1.0 == 2.0 * q / w;
    CancelScale(2.0 * q, w);
  }

  /** WorldX in terms of the column's NDC value n. */
  lemma WorldXByNdc(m: real, w: real, h: real, z: real, cx: real, n: real)
    requires w != 0.0 && h != 0.0 && 2.0 * m / w - 1.0 == n
    ensures WorldX(m, w, h, z, cx) == n * (HALF_EXTENT * z * (w / h)) + cx
  {
  }

  /** ScreenX in terms of the NDC value q of the world x. */
  lemma ScreenXByNdc(v: real, w: real, h: real, z: real, cx: real, q: real)
    requires w != 0.0 && h != 0.0 && z != 0.0
    requires (v - cx) / (HALF_EXTENT * z * (w / h)) == q
    ensures ScreenX(v, w, h, z, cx) == (q + 1.0) * w / 2.0
  {
  }

  lemma XRoundTrip(v: real, w: real, h: real, z: real, cx: real)
    requires w != 0.0 && h != 0.0 && z != 0.0
    ensures WorldX(ScreenX(v, w, h, z, cx), w, h, z, cx) == v
    ensures ScreenX(WorldX(v, w, h, z, cx), w, h, z, cx) == v
  {
    WorldScreenX(v, w, h, z, cx);
    ScreenWorldX(v, w, h, z, cx);
  }

  /** World x to pixel column and back. */
  lemma WorldScreenX(v: real, w: real, h: real, z: real, cx: real)
    requires w != 0.0 && h != 0.0 && z != 0.0
    ensures WorldX(ScreenX(v, w, h, z, cx), w, h, z, cx) == v
  {
    var k := HALF_EXTENT * z * (w / h);
    NonZeroProduct(HALF_EXTENT * z, w / h);
    var q := (v - cx) / k;
    var m := ScreenX(v, w, h, z, cx);
    ScreenXByNdc(v, w, h, z, cx, q);
    CancelPixel(q, w);
    WorldXByNdc(m, w, h, z, cx, q);
    CancelScale(v - cx, k);
  }

  /** Pixel column to world x and back. */
  lemma ScreenWorldX(v: real, w: real, h: real, z: real, cx: real)
    requires w != 0.0 && h != 0.0 && z != 0.0
    ensures ScreenX(WorldX(v, w, h, z, cx), w, h, z, cx) == v
  {
    var k := HALF_EXTENT * z * (w / h);
    NonZeroProduct(HALF_EXTENT * z, w / h);
    var n := 2.0 * v / w - 1.0;
    var world := WorldX(v, w, h, z, cx);
    WorldXByNdc(v, w, h, z, cx, n);
    CancelScale(n, k);
    assert (world - cx) / k == n;
    ScreenXByNdc(world, w, h, z, cx, n);
    CancelPixel(v, w);
  }

  lemma YRoundTrip(v: real, h: real, z: real, cy: real)
    requires h != 0.0 && z != 0.0
    ensures WorldY(ScreenY(v, h, z, cy), h, z, cy) == v
    ensures ScreenY(WorldY(v, h, z, cy), h, z, cy) == v
  {
    WorldScreenY(v, h, z, cy);
    ScreenWorldY(v, h, z, cy);
  }

  /** World y to pixel row and back. */
  lemma WorldScreenY(v: real, h: real, z: real, cy: real)
    requires h != 0.0 && z != 0.0
    ensures WorldY(ScreenY(v, h, z, cy), h, z, cy) == v
  {
    var k := HALF_EXTENT * z;
    var q := (v - cy) / k;
    CancelPixel(-q, h);
    CancelScale(v - cy, k);
    assert ScreenY(v, h, z, cy) == (-q + 1.0) * h / 2.0;
  }

  /** Pixel row to world y and back. */
  lemma ScreenWorldY(v: real, h: real, z: real, cy: real)
    requires h != 0.0 && z != 0.0
    ensures ScreenY(WorldY(v, h, z, cy), h, z, cy) == v
  {
    var k := HALF_EXTENT * z;
    var n := 2.0 * v / h - 1.0;
    CancelScale(-n, k);
    CancelPixel(v, h);
    assert WorldY(v, h, z, cy) - cy == -n * k;
  }

  /** A world point mapped to the screen and back is the same point. */
  lemma WorldScreenRoundTrip(cam: Camera, windowSize: Vec2, p: Vec2)
    requires windowSize.x != 0.0 && windowSize.y != 0.0 && cam.zoom != 0.0
    ensures ScreenToWorld(cam, windowSize, WorldToScreen(cam, windowSize, p)) == p
  {
    XRoundTrip(p.x, windowSize.x, windowSize.y, cam.zoom, cam.position.x);
    YRoundTrip(p.y, windowSize.y, cam.zoom, cam.position.y);
  }

  /** A screen position mapped into the world and back is the same pixel. */
  lemma ScreenWorldRoundTrip(cam: Camera, windowSize: Vec2, mouse: Vec2)
    requires windowSize.x != 0.0 && windowSize.y != 0.0 && cam.zoom != 0.0
    ensures WorldToScreen(cam, windowSize, ScreenToWorld(cam, windowSize, mouse)) == mouse
  {
    XRoundTrip(mouse.x, windowSize.x, windowSize.y, cam.zoom, cam.position.x);
    YRoundTrip(mouse.y, windowSize.y, cam.zoom, cam.position.y);
  }

  // ---------------------------------------------------------------- panning

  /** `isRightMousePressed` and the cursor position of the last frame. */
  datatype Pan = Pan(pressed: bool, last: Vec2)

  /** The camera position after dragging the cursor by `dx`, `dy` pixels
      in a `width` by `height` window. */
  function PannedPosition(cam: Camera, dx: real, dy: real, width: real, height: real): Vec2
    requires width != 0.0 && height != 0.0
  {
    var aspect := width / height;
    Vec2(cam.position.x - dx * cam.zoom * aspect / width * PAN_SCALE,
         cam.position.y + dy * cam.zoom / height * PAN_SCALE)
  }

  /** The right-button block of the main loop: a press anchors the cursor,
      holding it moves the camera against the cursor's motion (scaled to
      world units) and rebuilds the matrices at the current window size,
      releasing it clears the flag. */
  function RightButton(p: Pan, cam: Camera, pressed: bool, mouse: Vec2,
                       width: real, height: real): (r: (Pan, Camera))
    requires width != 0.0 && height != 0.0
    ensures r.0.pressed == pressed
    ensures pressed ==> r.0.last == mouse
    ensures !(pressed && p.pressed) ==> r.1 == cam
    ensures r.1.zoom == cam.zoom && r.1.id == cam.id
    ensures pressed && p.pressed ==> Synced(r.1) && r.1.lastWindowSize == Vec2(width, height)
  {
    if pressed then
      if !p.pressed then (Pan(true, mouse), cam)
      else
        var pos := PannedPosition(cam, mouse.x - p.last.x, mouse.y - p.last.y, width, height);
        (Pan(true, mouse), UpdateMatrix(SetPosition(cam, pos), Vec2(width, height)))
    else (Pan(false, p.last), cam)
  }

  /** Moving the cursor from `l` to `m` moves its NDC value by
      2 · (m - l) / w. */
  lemma ShiftedNdc(l: real, m: real, w: real)
    requires w != 0.0
    ensures 2.0 * m / w - 1.0 == (2.0 * l / w - 1.0) + 2.0 * (m - l) / w
  {
  }

  /** The horizontal pan step in world units is the NDC shift times the
      half-width of the view. */
  lemma PanStepX(d: real, w: real, h: real, z: real)
    requires w != 0.0 && h != 0.0
    ensures d * z * (w / h) / w * PAN_SCALE == (2.0 * d / w) * (HALF_EXTENT * z * (w / h))
  {
    var a := w / h;
    assert d * z * a / w * PAN_SCALE == 20.0 * (d * z * a / w);
    assert (2.0 * d / w) * (HALF_EXTENT * z * a) == 20.0 * ((d / w) * (z * a));
  }

  /** The vertical pan step in world units is the NDC shift times the
      half-height of the view. */
  lemma PanStepY(d: real, h: real, z: real)
    requires h != 0.0
    ensures d * z / h * PAN_SCALE == (2.0 * d / h) * (HALF_EXTENT * z)
  {
  }

  /** (n + u) · k + (c - u · k) = n · k + c. */
  lemma ShiftCancels(n: real, u: real, k: real, c: real)
    ensures (n + u) * k + (c - u * k) == n * k + c
    ensures (n - u) * k + (c + u * k) == n * k + c
  {
  }

  /** WorldY in terms of the row's NDC value n. */
  lemma WorldYByNdc(m: real, h: real, z: real, cy: real, n: real)
    requires h != 0.0 && 1.0 - 2.0 * m / h == n
    ensures WorldY(m, h, z, cy) == n * (HALF_EXTENT * z) + cy
  {
  }

  /** Horizontal axis of the pan: the grabbed world x stays put. */
  lemma PanAxisX(l: real, m: real, w: real, h: real, z: real, c: real)
    requires w != 0.0 && h != 0.0
    ensures WorldX(m, w, h, z, c - (m - l) * z * (w / h) / w * PAN_SCALE) == WorldX(l, w, h, z, c)
  {
    var k := HALF_EXTENT * z * (w / h);
    var n := 2.0 * l / w - 1.0;
    var u := 2.0 * (m - l) / w;
    ShiftedNdc(l, m, w);
    PanStepX(m - l, w, h, z);
    WorldXByNdc(m, w, h, z, c - u * k, n + u);
    WorldXByNdc(l, w, h, z, c, n);
    ShiftCancels(n, u, k, c);
  }

  /** Vertical axis of the pan: the grabbed world y stays put. */
  lemma PanAxisY(l: real, m: real, h: real, z: real, c: real)
    requires h != 0.0
    ensures WorldY(m, h, z, c + (m - l) * z / h * PAN_SCALE) == WorldY(l, h, z, c)
  {
    var k := HALF_EXTENT * z;
    var n := 1.0 - 2.0 * l / h;
    var u := 2.0 * (m - l) / h;
    ShiftedNdc(l, m, h);
    PanStepY(m - l, h, z);
    WorldYByNdc(m, h, z, c + u * k, n - u);
    WorldYByNdc(l, h, z, c, n);
    ShiftCancels(n, u, k, c);
  }

  /** Dragging with the right button keeps the grabbed world point under
      the cursor, as long as the window size used for the mapping is the
      current one. */
  lemma PanKeepsGrabbedPoint(p: Pan, cam: Camera, mouse: Vec2, width: real, height: real)
    requires width != 0.0 && height != 0.0 && p.pressed
    ensures ScreenToWorld(RightButton(p, cam, true, mouse, width, height).1, Vec2(width, height), mouse)
         == ScreenToWorld(cam, Vec2(width, height), p.last)
  {
    var moved := RightButton(p, cam, true, mouse, width, height).1;
    PannedCamera(p, cam, mouse, width, height);
    PanMapsBack(cam, moved, p.last, mouse, width, height);
  }

  /** A camera at the panned position, with the same zoom, sees `mouse`
      where the old camera saw `last`. */
  lemma PanMapsBack(cam: Camera, moved: Camera, last: Vec2, mouse: Vec2, width: real, height: real)
    requires width != 0.0 && height != 0.0
    requires moved.zoom == cam.zoom
    requires moved.position == PannedPosition(cam, mouse.x - last.x, mouse.y - last.y, width, height)
    ensures ScreenToWorld(moved, Vec2(width, height), mouse) == ScreenToWorld(cam, Vec2(width, height), last)
  {
    PanAxisX(last.x, mouse.x, width, height, cam.zoom, cam.position.x);
    PanAxisY(last.y, mouse.y, height, cam.zoom, cam.position.y);

  }

  /** While the button is held, the camera moves to the panned position
      and keeps its zoom. */
  lemma PannedCamera(p: Pan, cam: Camera, mouse: Vec2, width: real, height: real)
    requires width != 0.0 && height != 0.0 && p.pressed
    ensures var moved := RightButton(p, cam, true, mouse, width, height).1;
            && moved.position == PannedPosition(cam, mouse.x - p.last.x, mouse.y - p.last.y, width, height)
            && moved.zoom == cam.zoom
  {
  }

  // --------------------------------------------------------------- dragging

  predicate Near(mouse: Vec2, v: Vec2) {
    DistSq(mouse, v) < PICK_RADIUS_SQ
  }

  /** The first vertex at or after `from` within the pick radius, or -1. */
  function Pick(mouse: Vec2, vertices: seq<Vec2>, from: nat): (r: int)
    requires from <= |vertices|
    ensures r == -1 || from <= r < |vertices|
    ensures r != -1 ==> Near(mouse, vertices[r])
    ensures r != -1 ==> forall j | from <= j < r :: !Near(mouse, vertices[j])
    ensures r == -1 <==> forall j | from <= j < |vertices| :: !Near(mouse, vertices[j])
    decreases |vertices| - from
  {
    if from == |vertices| then -1
    else if Near(mouse, vertices[from]) then from
    else Pick(mouse, vertices, from + 1)
  }

  /** The source's search loop over the three vertices, breaking at the
      first hit. */
  method FindVertex(mouse: Vec2, vertices: seq<Vec2>) returns (selected: int)
    requires |vertices| == 3
    ensures selected == Pick(mouse, vertices, 0)
    ensures selected == -1 || (0 <= selected < 3 && Near(mouse, vertices[selected]))
  {
    selected := -1;
    var i := 0;
    while i < 3
      invariant 0 <= i <= 3
      invariant selected == -1
      invariant Pick(mouse, vertices, 0) == Pick(mouse, vertices, i)
    {
      if Near(mouse, vertices[i]) {
        selected := i;
        break;
      }
      i := i + 1;
    }
  }

  /** `dragging_vertex` and `selected_vertex`. */
  datatype Drag = Drag(dragging: bool, selected: int)

  const Idle: Drag := Drag(false, -1)

  /** The two flags move together: a drag always has a valid vertex, and
      no drag has -1. */
  predicate DragInv(d: Drag) {
    (d.dragging && 0 <= d.selected < 3) || d == Idle
  }

  /** The left-button block of the main loop. Pressing grabs the first
      vertex near the cursor; holding moves the grabbed vertex to the
      snapped cursor position when that differs from where it is;
      releasing ends the drag. */
  function LeftButton(m: Libm, d: Drag, tri: Triangles.Triangle, pressed: bool,
                      mouseWorld: Vec2): (r: (Drag, Triangles.Triangle))
    requires DragInv(d) && Triangles.Shaped(tri)
    ensures DragInv(r.0) && Triangles.Shaped(r.1)
    ensures !pressed ==> r.0 == Idle && r.1 == tri
    ensures pressed && !d.dragging ==>
            r.1 == tri && r.0.selected == Pick(mouseWorld, tri.vertices, 0)
    ensures pressed && d.dragging ==>
            && r.0 == d
            && r.1.vertices == tri.vertices[d.selected := SnapToGrid(mouseWorld)]
            && r.1.a == tri.a && r.1.b == tri.b && r.1.c == tri.c
    ensures r.1 != tri ==> pressed && d.dragging && SnapToGrid(mouseWorld) != tri.vertices[d.selected]
    ensures pressed && d.dragging && SnapToGrid(mouseWorld) != tri.vertices[d.selected] ==>
            r.1 == Triangles.MoveVertex(m, tri, d.selected, SnapToGrid(mouseWorld))
  {
    if pressed then
      if !d.dragging then
        var k := Pick(mouseWorld, tri.vertices, 0);
        (if k == -1 then d else Drag(true, k), tri)
      else if d.selected != -1 then
        var snapped := SnapToGrid(mouseWorld);
        if snapped != tri.vertices[d.selected] then
          var moved := Triangles.MoveVertex(m, tri, d.selected, snapped);
          assert moved.vertices == tri.vertices[d.selected := snapped];
          (d, moved)
        else (d, tri)
      else (d, tri)
    else if d.dragging then (Idle, tri)
    else (d, tri)
  }

  /** The vertex drawn highlighted: only the one being dragged. */
  function Highlighted(d: Drag, i: int): (r: bool)
    requires DragInv(d)
    ensures r ==> d.dragging && 0 <= i < 3
    ensures d.dragging ==> (r <==> i == d.selected)
  {
    d.dragging && i == d.selected
  }

  /** Press on a vertex, then hold over a new cell: the vertex lands on the
      grid point and the drag goes on; release: everything idles. */
  lemma DragScenario(m: Libm, tri: Triangles.Triangle)
    requires Triangles.Shaped(tri) && tri.vertices[0] == Origin
    ensures var (d1, t1) := LeftButton(m, Idle, tri, true, Vec2(0.1, 0.1));
            var (d2, t2) := LeftButton(m, d1, t1, true, Vec2(2.1, 0.95));
            var (d3, t3) := LeftButton(m, d2, t2, false, Vec2(2.1, 0.95));
            && d1 == Drag(true, 0) && t1 == tri
            && d2 == d1 && t2.vertices[0] == Vec2(2.0, 1.0)
            && d3 == Idle && t3 == t2
  {
    assert Near(Vec2(0.1, 0.1), tri.vertices[0]);
    SnapAxisNearest(2.1, 2);
    SnapAxisNearest(0.95, 1);
  }
}

=== FILE: layout.dfy ===
/** Vertex buffer layouts (src/VertexBufferLayout.h and its namespaced
    copy src/Renderer/VertexBufferLayout.hpp, which declare the same
    element type, size table and layout state) and the attribute setup of
    `VertexArray::add_buffer` (src/Renderer/VertexArray.cpp). Counts,
    sizes, the stride and the offsets are C `unsigned int`s, so their
    arithmetic wraps modulo 2^32. */
module Layouts {
  import opened Base

  /** The OpenGL type enumerants the layouts use. */
  const GL_UNSIGNED_BYTE: u32 := 0x1401
  const GL_UNSIGNED_INT: u32 := 0x1405
  const GL_FLOAT: u32 := 0x1406
  const GL_FALSE: u32 := 0
  const GL_TRUE: u32 := 1

  /** `VertexBufferElement::GetSizeOfType`: bytes per component. */
  function SizeOfType(t: u32): (r: u32)
    ensures r == 4 <==> t == GL_FLOAT || t == GL_UNSIGNED_INT
    ensures r == 1 <==> t == GL_UNSIGNED_BYTE
    ensures r == 0 <==> t != GL_FLOAT && t != GL_UNSIGNED_INT && t != GL_UNSIGNED_BYTE
  {
    if t == GL_FLOAT then 4
    else if t == GL_UNSIGNED_INT then 4
    else if t == GL_UNSIGNED_BYTE then 1
    else 0
  }

  /** `VertexBufferElement`; `normalized` is an `unsigned char`. */
  datatype Element = Element(kind: u32, count: u32, normalized: byte)

  /** The element constructor: the normalized flag arrives as an
      `unsigned int` and is narrowed to a byte. */
  function MakeElement(kind: u32, count: u32, normalized: u32): (r: Element)
    ensures r.kind == kind && r.count == count
    ensures normalized < 256 ==> r.normalized == normalized
    ensures (r.normalized - normalized) % 256 == 0
  {
    Element(kind, count, normalized % 256)
  }

  /** Bytes an element occupies in one vertex, as a mathematical integer. */
  function ElementBytes(e: Element): nat {
    e.count * SizeOfType(e.kind)
  }

  /** Bytes of a sequence of elements, summed in order. */
  function TotalBytes(es: seq<Element>): nat {
    if |es| == 0 then 0 else TotalBytes(es[..|es| - 1]) + ElementBytes(es[|es| - 1])
  }

  datatype Layout = Layout(elements: seq<Element>, stride: u32)

  /** A new layout: no elements, stride 0. */
  const EmptyLayout: Layout := Layout([], 0)

  /** The stride is the wrapped byte total of the elements. */
  predicate StrideConsistent(l: Layout) {
    l.stride == WrapU32(TotalBytes(l.elements))
  }

  /** The shared body of the three `push` specialisations: append the
      element and add `count * size` to the stride, both in `unsigned int`. */
  function Push(l: Layout, kind: u32, count: u32, normalized: u32): (r: Layout)
    ensures r.elements == l.elements + [MakeElement(kind, count, normalized)]
    ensures r.stride == WrapU32(l.stride + count * SizeOfType(kind))
    ensures StrideConsistent(l) ==> StrideConsistent(r)
  {
    var e := MakeElement(kind, count, normalized);
    var elements := l.elements + [e];
    assert elements[..|elements| - 1] == l.elements;
    WrapU32Add(count * SizeOfType(kind), l.stride);
    WrapU32Add(TotalBytes(l.elements), ElementBytes(e));
    l.(elements := elements, stride := WrapU32(l.stride + WrapU32(count * SizeOfType(kind))))
  }

  /** `push<float>(count)`: a non-normalized float element, 4 bytes per
      component. */
  function PushFloat(l: Layout, count: u32): (r: Layout)
    ensures r.elements == l.elements + [Element(GL_FLOAT, count, 0)]
    ensures r.stride == WrapU32(l.stride + 4 * count)
    ensures StrideConsistent(l) ==> StrideConsistent(r)
  {
    Push(l, GL_FLOAT, count, GL_FALSE)
  }

  /** `push<unsigned int>(count)`. */
  function PushUInt(l: Layout, count: u32): (r: Layout)
    ensures r.elements == l.elements + [Element(GL_UNSIGNED_INT, count, 0)]
    ensures r.stride == WrapU32(l.stride + 4 * count)
    ensures StrideConsistent(l) ==> StrideConsistent(r)
  {
    Push(l, GL_UNSIGNED_INT, count, GL_FALSE)
  }

  /** `push<unsigned char>(count)`: normalized, one byte per component. */
  function PushUByte(l: Layout, count: u32): (r: Layout)
    ensures r.elements == l.elements + [Element(GL_UNSIGNED_BYTE, count, 1)]
    ensures r.stride == WrapU32(l.stride + count)
    ensures StrideConsistent(l) ==> StrideConsistent(r)
  {
    Push(l, GL_UNSIGNED_BYTE, count, GL_TRUE)
  }

  /** One call of a `push` specialisation. */
  datatype PushCall = PushFloatCall(n: u32) | PushUIntCall(n: u32) | PushUByteCall(n: u32)

  /** The element a push call appends: floats and unsigned ints are not
      normalized, unsigned bytes are. */
  function ElementOf(c: PushCall): Element {
    match c
    case PushFloatCall(n) => Element(GL_FLOAT, n, 0)
    case PushUIntCall(n) => Element(GL_UNSIGNED_INT, n, 0)
    case PushUByteCall(n) => Element(GL_UNSIGNED_BYTE, n, 1)
  }

  function Apply(l: Layout, c: PushCall): (r: Layout)
    ensures |r.elements| == |l.elements| + 1 && r.elements[..|l.elements|] == l.elements
    ensures r.elements[|l.elements|] == ElementOf(c)
    ensures StrideConsistent(l) ==> StrideConsistent(r)
  {
    match c
    case PushFloatCall(n) => PushFloat(l, n)
    case PushUIntCall(n) => PushUInt(l, n)
    case PushUByteCall(n) => PushUByte(l, n)
  }

  /** The layout a new `VertexBufferLayout` has after a series of pushes. */
  function Build(calls: seq<PushCall>): Layout {
    if |calls| == 0 then EmptyLayout else Apply(Build(calls[..|calls| - 1]), calls[|calls| - 1])
  }

  /** Every layout built by pushes has one element per push, in push
      order, and a consistent stride. */
  lemma BuildConsistent(calls: seq<PushCall>)
    ensures StrideConsistent(Build(calls))
    ensures |Build(calls).elements| == |calls|
    ensures forall i | 0 <= i < |calls| :: Build(calls).elements[i] == ElementOf(calls[i])
  {
    BuildStride(calls);
    BuildElements(calls);
  }

  /** The stride of a built layout is the wrapped sum of its elements' sizes. */
  lemma {:induction false} BuildStride(calls: seq<PushCall>)
    ensures StrideConsistent(Build(calls))
  {
    if |calls| > 0 {
      BuildStride(calls[..|calls| - 1]);
    }
  }

  /** Element i of a built layout is the one push i appended. */
  lemma {:induction false} BuildElements(calls: seq<PushCall>)
    ensures |Build(calls).elements| == |calls|
    ensures forall i | 0 <= i < |calls| :: Build(calls).elements[i] == ElementOf(calls[i])
  {
    if |calls| > 0 {
      var init := calls[..|calls| - 1];
      BuildElements(init);
      var l := Build(init);
      var r := Apply(l, calls[|calls| - 1]);
      assert Build(calls) == r;
      forall i | 0 <= i < |calls|
        ensures r.elements[i] == ElementOf(calls[i])
      {
        ApplyElement(l, calls[|calls| - 1], i);
        if i < |init| {
          assert init[i] == calls[i];
        }
      }
    }
  }

  /** Element i after a push: an earlier element, or the pushed one. */
  lemma ApplyElement(l: Layout, c: PushCall, i: nat)
    requires i <= |l.elements|
    ensures Apply(l, c).elements[i] == if i < |l.elements| then l.elements[i] else ElementOf(c)
  {
    var r := Apply(l, c);
    if i < |l.elements| {
      assert r.elements[i] == r.elements[..|l.elements|][i];
    }
  }

  /** Pushing only appends: the earlier elements keep their places. */
  lemma {:induction false} PushKeepsPrefix(calls: seq<PushCall>, more: seq<PushCall>)
    ensures Build(calls).elements <= Build(calls + more).elements
    decreases |more|
  {
    if |more| == 0 {
      assert calls + more == calls;
    } else {
      var init := more[..|more| - 1];
      assert (calls + more)[..|calls + more| - 1] == calls + init;
      PushKeepsPrefix(calls, init);
    }
  }

  /** The arguments of one `glVertexAttribPointer` call. */
  datatype Attribute = Attribute(index: u32, count: u32, kind: u32, normalized: byte,
                                 stride: u32, offset: u32)

  /** The attribute `add_buffer` sets up for element `j` of the layout. */
  function AttributeAt(layout: Layout, j: nat): Attribute
    requires j < |layout.elements| < U32_MODULUS
  {
    var e := layout.elements[j];
    Attribute(j, e.count, e.kind, e.normalized, layout.stride, WrapU32(TotalBytes(layout.elements[..j])))
  }

  /** One step of the running offset: adding the wrapped byte size of
      element `i` to the wrapped offset of the elements before it gives the
      wrapped offset of the elements up to and including it. */
  lemma OffsetStep(elements: seq<Element>, i: nat)
    requires i < |elements|
    ensures WrapU32(WrapU32(TotalBytes(elements[..i])) + WrapU32(ElementBytes(elements[i])))
            == WrapU32(TotalBytes(elements[..i + 1]))
  {
    var e := elements[i];
    assert elements[..i + 1][..i] == elements[..i];
    assert TotalBytes(elements[..i + 1]) == TotalBytes(elements[..i]) + ElementBytes(e);
    WrapU32Add(TotalBytes(elements[..i]), WrapU32(ElementBytes(e)));
    WrapU32Add(ElementBytes(e), TotalBytes(elements[..i]));
  }

  /** `VertexArray::add_buffer`: one attribute per element, numbered in
      element order, each with the layout's stride and the running
      `unsigned int` byte offset. The loop index is an `unsigned int`, so
      the layout must have fewer than 2^32 elements for the loop to end. */
  method AddBuffer(layout: Layout) returns (attributes: seq<Attribute>, finalOffset: u32)
    requires |layout.elements| < U32_MODULUS
    ensures |attributes| == |layout.elements|
    ensures forall i | 0 <= i < |attributes| ::
              var e := layout.elements[i];
              attributes[i] == Attribute(i, e.count, e.kind, e.normalized, layout.stride,
                                         WrapU32(TotalBytes(layout.elements[..i])))
    ensures finalOffset == WrapU32(TotalBytes(layout.elements))
    ensures StrideConsistent(layout) ==> finalOffset == layout.stride
  {
    var elements := layout.elements;
    attributes := [];
    var offset: u32 := 0;
    var i := 0;
    while i < |elements|
      invariant 0 <= i <= |elements|
      invariant |attributes| == i
      invariant forall j | 0 <= j < i :: attributes[j] == AttributeAt(layout, j)
      invariant offset == WrapU32(TotalBytes(elements[..i]))
    {
      var e := elements[i];
      attributes := attributes + [Attribute(i, e.count, e.kind, e.normalized, layout.stride, offset)];
      OffsetStep(elements, i);
      offset := WrapU32(offset + WrapU32(e.count * SizeOfType(e.kind)));
      i := i + 1;
    }
    assert elements[..i] == elements;
    finalOffset := offset;
  }

  /** Every mesh layout of the renderer is a single `push<float>(2)`: a
      two-float position with stride 8 at offset 0. */
  lemma MeshLayout()
    ensures PushFloat(EmptyLayout, 2) == Layout([Element(GL_FLOAT, 2, 0)], 8)
    ensures TotalBytes(PushFloat(EmptyLayout, 2).elements[..0]) == 0
  {
  }
}

=== FILE: renderer.dfy ===
/** Mesh sizing and GPU resource lifecycle of the two renderers: the
    original `Renderer` (src/Renderer.cpp) and `Heron::Renderer2D`
    (src/Renderer/Renderer.cpp). Meshes are the float sequences the
    renderers upload; a draw call is its first vertex and vertex count;
    every mesh layout is one `push<float>(2)`, so a vertex is two floats. */
module Meshes {
  import opened Base
  import opened Geometry
  import opened Handles
  import Layouts

  /** Floats per vertex (the layout's stride is 8 bytes). */
  const VERTEX_FLOATS: nat := 2

  /** A `glDrawArrays` call: first vertex and vertex count. */
  datatype Draw = Draw(first: nat, count: nat)

  /** A draw stays inside a mesh of `meshFloats` floats. */
  predicate Fits(d: Draw, meshFloats: nat) {
    d.first + d.count <= meshFloats / VERTEX_FLOATS
  }

  // ------------------------------------------------------------------ grid

  /** The grid spans -20..20 in both directions. */
  const GRID_EXTENT: int := 20
  /** Iterations of the grid loop: i = -20, ..., 20. */
  const GRID_STEPS: nat := 41
  /** Floats per iteration: a vertical and a horizontal line. */
  const STEP_FLOATS: nat := 8

  /** The eight floats the loop pushes for index i: the vertical line
      x = i and the horizontal line y = i, each from -20 to 20. */
  function GridStep(i: int): seq<real> {
    [i as real, -20.0, i as real, 20.0, -20.0, i as real, 20.0, i as real]
  }

  /** The first n iterations of the grid loop. */
  function GridPrefix(n: nat): (r: seq<real>)
    ensures |r| == STEP_FLOATS * n
  {
    if n == 0 then [] else GridPrefix(n - 1) + GridStep(n - 1 - GRID_EXTENT)
  }

  /** The full grid mesh. */
  function Grid(): seq<real> {
    GridPrefix(GRID_STEPS)
  }

  /** `setup_grid` / `GenerateGrid`: the loop from -20 to 20 pushing two
      lines per index. */
  method GenerateGrid() returns (lines: seq<real>)
    ensures lines == Grid()
    ensures |lines| == 328 && |lines| / VERTEX_FLOATS == 164
  {
    lines := [];
    var i := -GRID_EXTENT;
    while i <= GRID_EXTENT
      invariant -GRID_EXTENT <= i <= GRID_EXTENT + 1
      invariant lines == GridPrefix(i + GRID_EXTENT)
    {
      lines := lines + [i as real, -20.0, i as real, 20.0];
      lines := lines + [-20.0, i as real, 20.0, i as real];
      i := i + 1;
    }
  }

  /** Iteration k of the grid sits at floats 8k .. 8k + 8. */
  lemma {:induction false} GridSlice(n: nat, k: nat)
    requires k < n
    ensures GridPrefix(n)[STEP_FLOATS * k .. STEP_FLOATS * k + STEP_FLOATS] == GridStep(k - GRID_EXTENT)
  {
    if k < n - 1 {
      GridSlice(n - 1, k);
      assert GridPrefix(n)[..STEP_FLOATS * (n - 1)] == GridPrefix(n - 1);
    } else {
      assert GridPrefix(n)[STEP_FLOATS * (n - 1)..] == GridStep(n - 1 - GRID_EXTENT);
    }
  }

  /** Each iteration draws the vertical line through x = k - 20 and the
      horizontal line through y = k - 20, both spanning -20..20. */
  lemma GridPattern(k: nat)
    requires k < GRID_STEPS
    ensures var g := Grid(); var i := (k - GRID_EXTENT) as real; var b := STEP_FLOATS * k;
            && g[b] == g[b + 2] == i && g[b + 1] == -20.0 && g[b + 3] == 20.0
            && g[b + 5] == g[b + 7] == i && g[b + 4] == -20.0 && g[b + 6] == 20.0
  {
    GridSlice(GRID_STEPS, k);
    var b := STEP_FLOATS * k;
    var g, step := Grid(), GridStep(k - GRID_EXTENT);
    assert g[b .. b + STEP_FLOATS] == step;
    assert g[b] == step[0] && g[b + 1] == step[1] && g[b + 2] == step[2] && g[b + 3] == step[3];
    assert g[b + 4] == step[4] && g[b + 5] == step[5] && g[b + 6] == step[6] && g[b + 7] == step[7];
  }

  /** `draw_grid`: (20 - (-20) + 1) · 4 vertices. */
  function DrawGrid(): (r: Draw)
    ensures Fits(r, |Grid()|)
    ensures r.count == |Grid()| / VERTEX_FLOATS
  {
    Draw(0, (GRID_EXTENT - (-GRID_EXTENT) + 1) * 4)
  }

  /** `DrawGrid` of Renderer2D as written: 168 vertices. */
  const DRAW_GRID_2D_AS_WRITTEN: Draw := Draw(0, 168)

  /** The written count overruns the 164-vertex grid by four vertices,
      two line segments. */
  lemma GridOverrunAsWritten()
    ensures !Fits(DRAW_GRID_2D_AS_WRITTEN, |Grid()|)
    ensures DRAW_GRID_2D_AS_WRITTEN.count - |Grid()| / VERTEX_FLOATS == 4
  {
  }

  /** `DrawGrid` of Renderer2D with the count derived from the grid loop,
      as in the original renderer. */
  function DrawGrid2D(): (r: Draw)
    ensures Fits(r, |Grid()|)
    ensures r.count == |Grid()| / VERTEX_FLOATS
  {
    Draw(0, GRID_STEPS * 4)
  }

  // --------------------------------------------------------------- circles

  /** The angle of point i of a circle with `segments` segments. */
  function Theta(m: Libm, i: int, segments: int): real
    requires segments != 0
  {
    2.0 * m.pi * (i as real) / (segments as real)
  }

  /** The point at `angle` on the unit circle. */
  function UnitPoint(m: Libm, angle: real): Vec2 {
    Vec2(m.cos(angle), m.sin(angle))
  }

  lemma UnitPointOnCircle(m: Libm, angle: real)
    requires TrigSound(m)
    ensures DistSq(Origin, UnitPoint(m, angle)) == 1.0
  {
    UnitCircle(m, angle);
    var c, s := m.cos(angle), m.sin(angle);
    assert (0.0 - c) * (0.0 - c) == c * c && (0.0 - s) * (0.0 - s) == s * s;
  }

  /** Segments of the original renderer's circle. */
  const CIRCLE_SEGMENTS: int := 32

  /** `setup_circle`: the 33 unit-circle points for i = 0..32 (the last
      repeats the first), no centre. */
  function CircleMesh(m: Libm): (r: seq<Vec2>)
    ensures |r| == CIRCLE_SEGMENTS + 1
  {
    seq(CIRCLE_SEGMENTS + 1, i => UnitPoint(m, Theta(m, i, CIRCLE_SEGMENTS)))
  }

  /** Every point of the circle mesh is on the unit circle. */
  lemma CircleMeshOnUnitCircle(m: Libm)
    requires TrigSound(m)
    ensures forall i | 0 <= i < |CircleMesh(m)| :: DistSq(Origin, CircleMesh(m)[i]) == 1.0
  {
    forall i | 0 <= i < |CircleMesh(m)|
      ensures DistSq(Origin, CircleMesh(m)[i]) == 1.0
    {
      UnitPointOnCircle(m, Theta(m, i, CIRCLE_SEGMENTS));
    }
  }

  /** `draw_circle` draws 32 of the 33 points as a fan. */
  const DRAW_CIRCLE: Draw := Draw(0, 32)

  lemma CircleDrawFits(m: Libm)
    ensures Fits(DRAW_CIRCLE, VERTEX_FLOATS * |CircleMesh(m)|)
  {
  }

  /** Points a `GenerateCircle` loop from 0 to `segments` produces. */
  function PointCount(segments: int): nat {
    if segments < 0 then 0 else segments + 1
  }

  /** The first n points of `GenerateCircle`, flattened and scaled. */
  function CirclePoints(m: Libm, radius: real, segments: int, n: nat): (r: seq<real>)
    requires segments != 0
    ensures |r| == 2 * n
  {
    if n == 0 then []
    else
      var angle := Theta(m, n - 1, segments);
      CirclePoints(m, radius, segments, n - 1) + [m.cos(angle) * radius, m.sin(angle) * radius]
  }

  /** Point i of the circle sits at floats 2i and 2i + 1. */
  lemma {:induction false} CirclePointAt(m: Libm, radius: real, segments: int, n: nat, i: nat)
    requires segments != 0 && i < n
    ensures var p := CirclePoints(m, radius, segments, n);
            p[2 * i] == m.cos(Theta(m, i, segments)) * radius
            && p[2 * i + 1] == m.sin(Theta(m, i, segments)) * radius
  {
    if i < n - 1 {
      CirclePointAt(m, radius, segments, n - 1, i);
    }
  }

  /** `GenerateCircle(radius, segments)`: the centre (0, 0) followed by
      the points of the loop i = 0..segments. A zero segment count divides
      by zero and is excluded. */
  function GenerateCircle(m: Libm, radius: real, segments: int): (r: seq<real>)
    requires segments != 0
    ensures |r| == 2 + 2 * PointCount(segments)
    ensures r[0] == 0.0 && r[1] == 0.0
  {
    [0.0, 0.0] + CirclePoints(m, radius, segments, PointCount(segments))
  }

  /** c² + s² = 1 scales to (cr)² + (sr)² = r². */
  lemma ScaledUnit(c: real, s: real, r: real)
    requires c * c + s * s == 1.0
    ensures (c * r) * (c * r) + (s * r) * (s * r) == r * r
  {
    assert (c * r) * (c * r) + (s * r) * (s * r) == (c * c + s * s) * (r * r);
  }

  /** Every rim vertex of the generated circle is `radius` away from the
      centre. */
  lemma GeneratedCircleRadius(m: Libm, radius: real, segments: int, i: nat)
    requires TrigSound(m) && segments != 0 && i < PointCount(segments)
    ensures var r := GenerateCircle(m, radius, segments);
            r[2 + 2 * i] * r[2 + 2 * i] + r[3 + 2 * i] * r[3 + 2 * i] == radius * radius
  {
    var angle := Theta(m, i, segments);
    CirclePointAt(m, radius, segments, PointCount(segments), i);
    UnitCircle(m, angle);
    ScaledUnit(m.cos(angle), m.sin(angle), radius);
  }

  /** `DrawCircle` of Renderer2D: 34 vertices. */
  const DRAW_CIRCLE_2D: Draw := Draw(0, 34)

  /** `Init` generates a 32-segment circle: 68 floats, 34 vertices, which
      the draw uses exactly. */
  lemma CircleDraw2DFits(m: Libm)
    ensures |GenerateCircle(m, 1.0, 32)| == 68
    ensures Fits(DRAW_CIRCLE_2D, |GenerateCircle(m, 1.0, 32)|)
    ensures DRAW_CIRCLE_2D.count == |GenerateCircle(m, 1.0, 32)| / VERTEX_FLOATS
  {
  }

  // -------------------------------------------------------------- triangle

  /** Floats in a triangle buffer: three 2D vertices. */
  const TRIANGLE_FLOATS: nat := 6

  /** `draw_triangle` / `DrawTriangle` draws three vertices. */
  const DRAW_TRIANGLE: Draw := Draw(0, 3)

  /** Renderer2D's initial triangle buffer. */
  const INITIAL_TRIANGLE: seq<Vec2> := [Vec2(0.0, 1.0), Vec2(-1.0, -1.0), Vec2(1.0, -1.0)]

  lemma TriangleDrawFits()
    ensures Fits(DRAW_TRIANGLE, TRIANGLE_FLOATS)
    ensures VERTEX_FLOATS * |INITIAL_TRIANGLE| == TRIANGLE_FLOATS
    ensures Layouts.PushFloat(Layouts.EmptyLayout, 2).stride * |INITIAL_TRIANGLE| == 4 * TRIANGLE_FLOATS
  {
  }

  /** The triangle buffer after a draw: re-uploaded from the vertices
      (three vertices at offset 0) only when an update is needed. */
  function DrawTriangle(buffer: seq<Vec2>, vertices: seq<Vec2>, updateNeeded: bool): (r: seq<Vec2>)
    requires |buffer| == 3 && |vertices| == 3
    ensures |r| == 3
    ensures !updateNeeded ==> r == buffer
    ensures buffer == vertices || updateNeeded ==> r == vertices
  {
    if updateNeeded then vertices else buffer
  }

  /** One frame: the triangle's vertices and its update flag. */
  datatype Frame = Frame(vertices: seq<Vec2>, updateNeeded: bool)

  predicate WellShapedFrames(frames: seq<Frame>) {
    forall i | 0 <= i < |frames| :: |frames[i].vertices| == 3
  }

  /** The buffer after drawing every frame in turn. */
  function DrawFrames(buffer: seq<Vec2>, frames: seq<Frame>): (r: seq<Vec2>)
    requires |buffer| == 3 && WellShapedFrames(frames)
    ensures |r| == 3
    decreases |frames|
  {
    if |frames| == 0 then buffer
    else DrawFrames(DrawTriangle(buffer, frames[0].vertices, frames[0].updateNeeded), frames[1..])
  }

  /** The triangle flags every frame in which its vertices differ from
      the previous frame's (or from the buffer, for the first frame). */
  predicate FlagsChanges(buffer: seq<Vec2>, frames: seq<Frame>) {
    forall i | 0 <= i < |frames| :: Before(buffer, frames, i) != frames[i].vertices ==> frames[i].updateNeeded
  }

  /** The vertices the buffer should hold before frame i is drawn. */
  function Before(buffer: seq<Vec2>, frames: seq<Frame>, i: nat): seq<Vec2>
    requires i < |frames|
  {
    if i == 0 then buffer else frames[i - 1].vertices
  }

  /** If every change is flagged, the GPU buffer always holds the current
      triangle after a draw. */
  lemma {:induction false} BufferTracksTriangle(buffer: seq<Vec2>, frames: seq<Frame>)
    requires |buffer| == 3 && WellShapedFrames(frames) && |frames| > 0
    requires FlagsChanges(buffer, frames)
    ensures DrawFrames(buffer, frames) == frames[|frames| - 1].vertices
    decreases |frames|
  {
    var next := DrawTriangle(buffer, frames[0].vertices, frames[0].updateNeeded);
    assert Before(buffer, frames, 0) != frames[0].vertices ==> frames[0].updateNeeded;
    assert next == frames[0].vertices;
    assert DrawFrames(buffer, frames) == DrawFrames(next, frames[1..]);
    if |frames| > 1 {
      var rest := frames[1..];
      forall i | 0 <= i < |rest|
        ensures Before(next, rest, i) == Before(buffer, frames, i + 1) && rest[i] == frames[i + 1]
      {
      }
      BufferTracksTriangle(next, rest);
    }
  }

  // ----------------------------------------------------- resource lifecycle

  /** Bytes uploaded for each Renderer2D mesh. */
  const FLOAT_BYTES: nat := 4

  /** The GPU objects of `Renderer2DData` (the shader is not modelled). */
  datatype Renderer2DData = Renderer2DData(
    gridArray: VertexArray, gridBuffer: VertexBuffer,
    circleArray: VertexArray, circleBuffer: VertexBuffer,
    triangleArray: VertexArray, triangleBuffer: VertexBuffer)

  function Names(d: Renderer2DData): seq<nat> {
    [d.gridArray.id, d.gridBuffer.id, d.circleArray.id, d.circleBuffer.id,
     d.triangleArray.id, d.triangleBuffer.id]
  }

  /** `Init`: grid, circle, then triangle, each creating its vertex array
      and then its vertex buffer. */
  function Init2D(g: Gl): (r: (Renderer2DData, Gl))
    requires GlInv(g)
    ensures GlInv(r.1)
    ensures forall i | 0 <= i < 6 :: Names(r.0)[i] != 0 && Names(r.0)[i] in r.1.live
                                     && Names(r.0)[i] !in g.live && Names(r.0)[i] !in g.deleted
    ensures Distinct(Names(r.0))
    ensures r.1.deleted == g.deleted
    ensures r.0.gridBuffer.uploaded == FLOAT_BYTES * |Grid()|
    ensures r.0.triangleBuffer.uploaded == FLOAT_BYTES * TRIANGLE_FLOATS
    ensures r.0.circleBuffer.uploaded == FLOAT_BYTES * (2 + 2 * PointCount(32))
  {
    var (ga, g1) := NewVertexArray(g);
    var (gb, g2) := NewVertexBuffer(g1, 328 * FLOAT_BYTES);
    var (ca, g3) := NewVertexArray(g2);
    var (cb, g4) := NewVertexBuffer(g3, 68 * FLOAT_BYTES);
    var (ta, g5) := NewVertexArray(g4);
    var (tb, g6) := NewVertexBuffer(g5, TRIANGLE_FLOATS * FLOAT_BYTES);
    (Renderer2DData(ga, gb, ca, cb, ta, tb), g6)
  }

  /** `Shutdown`: remove the three vertex arrays (grid, triangle, circle),
      then the three vertex buffers in the same order. */
  function Shutdown2D(d: Renderer2DData, g: Gl): (r: (Renderer2DData, Gl))
    ensures Names(r.0) == [0, 0, 0, 0, 0, 0]
  {
    var (ga, g1) := RemoveVertexArray(d.gridArray, g);
    var (ta, g2) := RemoveVertexArray(d.triangleArray, g1);
    var (ca, g3) := RemoveVertexArray(d.circleArray, g2);
    var (gb, g4) := RemoveVertexBuffer(d.gridBuffer, g3);
    var (tb, g5) := RemoveVertexBuffer(d.triangleBuffer, g4);
    var (cb, g6) := RemoveVertexBuffer(d.circleBuffer, g5);
    (Renderer2DData(ga, gb, ca, cb, ta, tb), g6)
  }

  /** Static destruction of `s_data` at exit: the members' destructors,
      in reverse declaration order, each call `remove`. */
  function Release2D(d: Renderer2DData, g: Gl): (r: Gl)
    ensures r.deleted == g.deleted + Deleted(d.triangleBuffer.id) + Deleted(d.triangleArray.id)
                         + Deleted(d.circleBuffer.id) + Deleted(d.circleArray.id)
                         + Deleted(d.gridBuffer.id) + Deleted(d.gridArray.id)
    ensures r.live == g.live - Gone(d.triangleBuffer.id) - Gone(d.triangleArray.id)
                      - Gone(d.circleBuffer.id) - Gone(d.circleArray.id)
                      - Gone(d.gridBuffer.id) - Gone(d.gridArray.id)
  {
    var (_, g1) := RemoveVertexBuffer(d.triangleBuffer, g);
    var (_, g2) := RemoveVertexArray(d.triangleArray, g1);
    var (_, g3) := RemoveVertexBuffer(d.circleBuffer, g2);
    var (_, g4) := RemoveVertexArray(d.circleArray, g3);
    var (_, g5) := RemoveVertexBuffer(d.gridBuffer, g4);
    var (_, g6) := RemoveVertexArray(d.gridArray, g5);
    g6
  }

  /** Shutdown's delete calls, in its order, for a fully created renderer. */
  lemma ShutdownLog(d: Renderer2DData, g: Gl)
    requires forall i | 0 <= i < 6 :: Names(d)[i] != 0
    ensures var n := Names(d);
            var g2 := Shutdown2D(d, g).1;
            && g2.deleted == g.deleted + [n[0], n[4], n[2], n[1], n[5], n[3]]
            && forall i | 0 <= i < 6 :: n[i] !in g2.live
  {
  }

  /** The exit-time destructors of zeroed members delete nothing. */
  lemma ReleaseZeroed(d: Renderer2DData, g: Gl)
    requires Names(d) == [0, 0, 0, 0, 0, 0]
    ensures Release2D(d, g) == g
  {
  }

  /** Shutdown deletes distinct names when the renderer's names are distinct. */
  lemma ShutdownOrderDistinct(n: seq<nat>)
    requires |n| == 6 && Distinct(n)
    ensures Distinct([n[0], n[4], n[2], n[1], n[5], n[3]])
  {
  }

  /** Init, Shutdown, then exit: every one of the six objects is deleted
      exactly once, and none of them is live afterwards. */
  lemma ShutdownThenExitDeletesOnce(g: Gl)
    requires GlInv(g)
    ensures var (d, g1) := Init2D(g);
            var (d2, g2) := Shutdown2D(d, g1);
            var g3 := Release2D(d2, g2);
            && g3 == g2
            && (forall i | 0 <= i < 6 :: Deletes(g3, Names(d)[i]) == 1 && Names(d)[i] !in g3.live)
            && |g3.deleted| == |g.deleted| + 6
  {
    var (d, g1) := Init2D(g);
    var (d2, g2) := Shutdown2D(d, g1);
    var n := Names(d);
    var log := [n[0], n[4], n[2], n[1], n[5], n[3]];
    ShutdownLog(d, g1);
    ReleaseZeroed(d2, g2);
    ShutdownOrderDistinct(n);
    forall i | 0 <= i < 6
      ensures Deletes(g2, n[i]) == 1
    {
      assert n[i] in log;
      DeletedOnceAfter(g1, log, n[i]);
    }
  }

  /** The original renderer's GL objects. */
  datatype Renderer = Renderer(program: nat, gridVao: nat, gridVbo: nat,
                               triangleVao: nat, triangleVbo: nat,
                               circleVao: nat, circleVbo: nat)

  function RendererNames(r: Renderer): seq<nat> {
    [r.program, r.gridVao, r.gridVbo, r.triangleVao, r.triangleVbo, r.circleVao, r.circleVbo]
  }

  /** `init`: shaders, then the grid, triangle and circle objects. */
  function InitRenderer(g: Gl): (r: (Renderer, Gl))
    requires GlInv(g)
    ensures GlInv(r.1) && r.1.deleted == g.deleted
    ensures forall i | 0 <= i < 7 :: RendererNames(r.0)[i] in r.1.live
                                     && RendererNames(r.0)[i] !in g.deleted
    ensures Distinct(RendererNames(r.0))
  {
    var (p, g1) := Generate(g);
    var (gva, g2) := Generate(g1);
    var (gvb, g3) := Generate(g2);
    var (tva, g4) := Generate(g3);
    var (tvb, g5) := Generate(g4);
    var (cva, g6) := Generate(g5);
    var (cvb, g7) := Generate(g6);
    (Renderer(p, gva, gvb, tva, tvb, cva, cvb), g7)
  }

  /** The destructor as written: grid and triangle objects and the
      program are deleted, the circle's are not. */
  function DestroyRendererAsWritten(r: Renderer, g: Gl): (g2: Gl)
    ensures g2.deleted == g.deleted + [r.gridVao, r.gridVbo, r.triangleVao, r.triangleVbo, r.program]
    ensures g2.live == g.live - {r.gridVao, r.gridVbo, r.triangleVao, r.triangleVbo, r.program}
  {
    Delete(Delete(Delete(Delete(Delete(g, r.gridVao), r.gridVbo), r.triangleVao), r.triangleVbo), r.program)
  }

  /** After init and destruction the circle's vertex array and buffer are
      still live. */
  lemma CircleLeakAsWritten(g: Gl)
    requires GlInv(g)
    ensures var (r, g1) := InitRenderer(g);
            var g2 := DestroyRendererAsWritten(r, g1);
            r.circleVao in g2.live && r.circleVbo in g2.live
  {
  }

  /** The destructor releasing the circle objects as well. */
  function DestroyRenderer(r: Renderer, g: Gl): (g2: Gl)
    ensures forall i | 0 <= i < 7 :: RendererNames(r)[i] !in g2.live
    ensures g2.deleted == g.deleted + [r.gridVao, r.gridVbo, r.triangleVao, r.triangleVbo,
                                       r.program, r.circleVao, r.circleVbo]
  {
    Delete(Delete(DestroyRendererAsWritten(r, g), r.circleVao), r.circleVbo)
  }

  /** The corrected destructor deletes distinct names when the renderer's
      names are distinct. */
  lemma DestroyOrderDistinct(n: seq<nat>)
    requires |n| == 7 && Distinct(n)
    ensures Distinct([n[1], n[2], n[3], n[4], n[0], n[5], n[6]])
  {
  }

  /** With the corrected destructor every object of the renderer is
      deleted exactly once. */
  lemma RendererReleasesAll(g: Gl)
    requires GlInv(g)
    ensures var (r, g1) := InitRenderer(g);
            var g2 := DestroyRenderer(r, g1);
            forall i | 0 <= i < 7 :: Deletes(g2, RendererNames(r)[i]) == 1 && RendererNames(r)[i] !in g2.live
  {
    var (r, g1) := InitRenderer(g);
    var g2 := DestroyRenderer(r, g1);
    var n := RendererNames(r);
    var log := [n[1], n[2], n[3], n[4], n[0], n[5], n[6]];
    DestroyOrderDistinct(n);
    forall i | 0 <= i < 7
      ensures Deletes(g2, n[i]) == 1
    {
      assert n[i] in log;
      DeletedOnceAfter(g1, log, n[i]);
    }
  }
}

=== FILE: screenshot.dfy ===
/** `Screenshot::save` (src/Screenshot.cpp): read the framebuffer as RGB
    bytes, bottom row first, and flip the rows so that the PNG is written
    top row first. The pixels `glReadPixels` returns are a parameter; the
    PNG encoder is not modelled. */
module Screenshots {
  import opened Base

  /** Bytes per pixel (`GL_RGB`, one unsigned byte per channel). */
  const CHANNELS: nat := 3

  /** The largest C `int`; the buffer size is computed in `int`. */
  const INT_MAX: int := 0x7fff_ffff

  /** Row `y` of a buffer of `rows` rows of `rowLen` bytes each. */
  function Row(p: seq<byte>, rowLen: nat, rows: nat, y: nat): (r: seq<byte>)
    requires |p| == rows * rowLen && y < rows
    ensures |r| == rowLen
  {
    RowInBounds(rowLen, rows, y);
    p[y * rowLen..y * rowLen + rowLen]
  }

  /** Row `y` of `rows` rows ends inside the buffer. */
  lemma RowInBounds(rowLen: nat, rows: nat, y: nat)
    requires y < rows
    ensures y * rowLen + rowLen <= rows * rowLen
  {
    assert y * rowLen + rowLen == (y + 1) * rowLen;
    ProductMonotonic(y + 1, rows, rowLen);
  }

  lemma ProductMonotonic(a: nat, b: nat, c: nat)
    requires a <= b
    ensures a * c <= b * c
  {
  }

  /** The buffer with its rows in reverse order. */
  function Flip(p: seq<byte>, rowLen: nat, rows: nat): (r: seq<byte>)
    requires |p| == rows * rowLen
    ensures |r| == |p|
  {
    if rows == 0 then []
    else
      assert (rows - 1) * rowLen + rowLen == rows * rowLen;
      Row(p, rowLen, rows, rows - 1) + Flip(p[..(rows - 1) * rowLen], rowLen, rows - 1)
  }

  /** Row `y` of the flipped buffer is row `rows - 1 - y` of the original. */
  lemma {:induction false} FlipRow(p: seq<byte>, rowLen: nat, rows: nat, y: nat)
    requires |p| == rows * rowLen && y < rows
    ensures Row(Flip(p, rowLen, rows), rowLen, rows, y) == Row(p, rowLen, rows, rows - 1 - y)
  {
    assert (rows - 1) * rowLen + rowLen == rows * rowLen;
    var f := Flip(p, rowLen, rows);
    var last := Row(p, rowLen, rows, rows - 1);
    var init := p[..(rows - 1) * rowLen];
    var rest := Flip(init, rowLen, rows - 1);
    assert f == last + rest;
    if y == 0 {
      assert Row(f, rowLen, rows, 0) == f[..rowLen];
    } else {
      FlipRow(init, rowLen, rows - 1, y - 1);
      RowInBounds(rowLen, rows - 1, y - 1);
      RowInBounds(rowLen, rows - 1, rows - 1 - y);
      assert y * rowLen == (y - 1) * rowLen + rowLen;
      assert Row(f, rowLen, rows, y) == Row(rest, rowLen, rows - 1, y - 1);
      assert Row(init, rowLen, rows - 1, rows - 1 - y) == Row(p, rowLen, rows, rows - 1 - y);
    }
  }

  /** Byte `k` lies in row `k / rowLen`, at column `k % rowLen`. */
  lemma RowOfIndex(rowLen: nat, rows: nat, k: nat)
    requires k < rows * rowLen
    ensures 0 < rowLen && k / rowLen < rows
    ensures k == (k / rowLen) * rowLen + k % rowLen
  {
    if k / rowLen >= rows {
      ProductMonotonic(rows, k / rowLen, rowLen);
    }
  }

  /** Column `c` of row `y` is byte `y · rowLen + c` of the buffer. */
  lemma RowAt(p: seq<byte>, rowLen: nat, rows: nat, y: nat, c: nat)
    requires |p| == rows * rowLen && y < rows && c < rowLen
    ensures y * rowLen + c < |p|
    ensures Row(p, rowLen, rows, y)[c] == p[y * rowLen + c]
  {
    RowInBounds(rowLen, rows, y);
  }

  /** Two buffers whose rows all agree are equal. */
  lemma SameRowsEqual(a: seq<byte>, b: seq<byte>, rowLen: nat, rows: nat)
    requires |a| == |b| == rows * rowLen
    requires forall y: nat | y < rows :: Row(a, rowLen, rows, y) == Row(b, rowLen, rows, y)
    ensures a == b
  {
    forall k | 0 <= k < |a|
      ensures a[k] == b[k]
    {
      RowOfIndex(rowLen, rows, k);
      var y: nat, c: nat := k / rowLen, k % rowLen;
      RowAt(a, rowLen, rows, y, c);
      RowAt(b, rowLen, rows, y, c);
    }
  }

  /** Flipping twice gives back the original buffer. */
  lemma FlipInvolution(p: seq<byte>, rowLen: nat, rows: nat)
    requires |p| == rows * rowLen
    ensures Flip(Flip(p, rowLen, rows), rowLen, rows) == p
  {
    var f := Flip(p, rowLen, rows);
    forall y: nat | y < rows
      ensures Row(Flip(f, rowLen, rows), rowLen, rows, y) == Row(p, rowLen, rows, y)
    {
      FlipRow(f, rowLen, rows, y);
      FlipRow(p, rowLen, rows, rows - 1 - y);
    }
    SameRowsEqual(Flip(f, rowLen, rows), p, rowLen, rows);
  }

  /** `memcpy(&dst[to], &src[from], len)` on byte buffers. */
  function Memcpy(dst: seq<byte>, to: nat, src: seq<byte>, from: nat, len: nat): (r: seq<byte>)
    requires to + len <= |dst| && from + len <= |src|
    ensures |r| == |dst|
    ensures r[to..to + len] == src[from..from + len]
    ensures forall k | 0 <= k < |dst| && !(to <= k < to + len) :: r[k] == dst[k]
  {
    dst[..to] + src[from..from + len] + dst[to + len..]
  }

  /** Rows `y` and `z` of a buffer do not overlap. */
  lemma RowsDisjoint(rowLen: nat, y: nat, z: nat)
    requires y != z
    ensures y * rowLen + rowLen <= z * rowLen || z * rowLen + rowLen <= y * rowLen
  {
    if y < z {
      ProductMonotonic(y + 1, z, rowLen);
    } else {
      ProductMonotonic(z + 1, y, rowLen);
    }
  }

  /** The two ranges iteration `y` of `Screenshot::save` copies, output
      row `y` and input row `height - 1 - y`, each width · 3 bytes long,
      lie inside the width · height · 3 byte buffers. */
  lemma CopyInBounds(width: nat, height: nat, y: nat)
    requires y < height
    ensures y * (width * CHANNELS) + width * CHANNELS <= height * (width * CHANNELS)
    ensures (height - 1 - y) * (width * CHANNELS) + width * CHANNELS <= height * (width * CHANNELS)
  {
    RowInBounds(width * CHANNELS, height, y);
    RowInBounds(width * CHANNELS, height, height - 1 - y);
  }

  /** Output rows below `y` hold their flipped input rows. */
  predicate CopiedBelow(flipped: seq<byte>, pixels: seq<byte>, rowLen: nat, rows: nat, y: nat)
    requires |flipped| == |pixels| == rows * rowLen && y <= rows
  {
    forall z: nat | z < y :: Row(flipped, rowLen, rows, z) == Row(pixels, rowLen, rows, rows - 1 - z)
  }

  /** Output rows from `y` on still hold the zeroes the buffer started with. */
  predicate UntouchedFrom(flipped: seq<byte>, rowLen: nat, rows: nat, y: nat)
    requires |flipped| == rows * rowLen
  {
    forall z: nat | y <= z < rows :: Row(flipped, rowLen, rows, z) == seq(rowLen, _ => 0)
  }

  /** Iteration `y` of the loop: one `memcpy` whose source and
      destination ranges lie inside the buffers, which writes output row
      `y` and no other. */
  function CopyRow(flipped: seq<byte>, pixels: seq<byte>, rowLen: nat, rows: nat, y: nat): (r: seq<byte>)
    requires |flipped| == |pixels| == rows * rowLen && y < rows
    ensures |r| == |flipped|
    ensures Row(r, rowLen, rows, y) == Row(pixels, rowLen, rows, rows - 1 - y)
    ensures forall z: nat | z < rows && z != y :: Row(r, rowLen, rows, z) == Row(flipped, rowLen, rows, z)
  {
    RowInBounds(rowLen, rows, y);
    RowInBounds(rowLen, rows, rows - 1 - y);
    var r := Memcpy(flipped, y * rowLen, pixels, (rows - 1 - y) * rowLen, rowLen);
    assert forall z: nat | z < rows && z != y :: Row(r, rowLen, rows, z) == Row(flipped, rowLen, rows, z) by {
      forall z: nat | z < rows && z != y
        ensures Row(r, rowLen, rows, z) == Row(flipped, rowLen, rows, z)
      {
        RowInBounds(rowLen, rows, z);
        RowsDisjoint(rowLen, y, z);
      }
    }
    r
  }

  /** Every row of a zeroed buffer is a zeroed row. */
  lemma ZeroedRows(rowLen: nat, rows: nat)
    ensures UntouchedFrom(seq(rows * rowLen, _ => 0), rowLen, rows, 0)
  {
    var zero: seq<byte> := seq(rows * rowLen, _ => 0);
    forall z: nat | z < rows
      ensures Row(zero, rowLen, rows, z) == seq(rowLen, _ => 0)
    {
      RowInBounds(rowLen, rows, z);
      assert forall j | 0 <= j < rowLen :: Row(zero, rowLen, rows, z)[j] == zero[z * rowLen + j];
    }
  }

  /** One iteration keeps both loop invariants, one row further on. */
  lemma CopyRowStep(flipped: seq<byte>, pixels: seq<byte>, rowLen: nat, rows: nat, y: nat)
    requires |flipped| == |pixels| == rows * rowLen && y < rows
    requires CopiedBelow(flipped, pixels, rowLen, rows, y)
    requires UntouchedFrom(flipped, rowLen, rows, y)
    ensures CopiedBelow(CopyRow(flipped, pixels, rowLen, rows, y), pixels, rowLen, rows, y + 1)
    ensures UntouchedFrom(CopyRow(flipped, pixels, rowLen, rows, y), rowLen, rows, y + 1)
  {
  }

  /** The loop over rows: copy input row `rows - 1 - y` to output row `y`,
      for `y` from 0 up, into a zeroed buffer of the same size. */
  method FlipRows(pixels: seq<byte>, rowLen: nat, rows: nat) returns (flipped: seq<byte>)
    requires |pixels| == rows * rowLen
    ensures flipped == Flip(pixels, rowLen, rows)
  {
    flipped := seq(|pixels|, _ => 0);
    ZeroedRows(rowLen, rows);
    var y := 0;
    while y < rows
      invariant 0 <= y <= rows
      invariant |flipped| == |pixels|
      invariant CopiedBelow(flipped, pixels, rowLen, rows, y)
      invariant UntouchedFrom(flipped, rowLen, rows, y)
    {
      CopyRowStep(flipped, pixels, rowLen, rows, y);
      flipped := CopyRow(flipped, pixels, rowLen, rows, y);
      y := y + 1;
    }
    forall z: nat | z < rows
      ensures Row(flipped, rowLen, rows, z) == Row(Flip(pixels, rowLen, rows), rowLen, rows, z)
    {
      FlipRow(pixels, rowLen, rows, z);
    }
    SameRowsEqual(flipped, Flip(pixels, rowLen, rows), rowLen, rows);
  }

  /** The pixel flip of `Screenshot::save`: both buffers hold
      width · height · 3 bytes (computed in `int`, so the product must
      fit), rows are width · 3 bytes long, and output row `y` is input row
      `height - 1 - y`. */
  method FlipPixels(pixels: seq<byte>, width: int, height: int) returns (flipped: seq<byte>)
    requires 0 <= width && 0 <= height && width * height * CHANNELS <= INT_MAX
    requires |pixels| == width * height * CHANNELS
    ensures |flipped| == |pixels|
    ensures flipped == Flip(pixels, width * CHANNELS, height)
    ensures forall y: nat | y < height ::
              Row(flipped, width * CHANNELS, height, y) == Row(pixels, width * CHANNELS, height, height - 1 - y)
  {
    var rowLen := width * CHANNELS;
    assert |pixels| == height * rowLen;
    flipped := FlipRows(pixels, rowLen, height);
    forall y: nat | y < height
      ensures Row(flipped, rowLen, height, y) == Row(pixels, rowLen, height, height - 1 - y)
    {
      FlipRow(pixels, rowLen, height, y);
    }
  }
}

=== FILE: shader.dfy ===
/** The shader program helpers of src/Shader.cpp: the `#shader` source
    splitter `parse_shader`, the compile/link conventions of
    `compile_shader` and `create_shader`, and the uniform-location memo that
    `Shader::get_uniform_location` and `Renderer::get_uniform_location`
    (src/Renderer.cpp) both implement. The shader file arrives as the
    sequence of lines `getline` would produce. */
module Shaders {
  import opened Handles

  /** `std::string::find(pat) != npos`: `pat` occurs somewhere in `s`
      (the empty pattern occurs everywhere). */
  function Contains(s: string, pat: string): bool {
    if pat <= s then true
    else if |s| == 0 then false
    else Contains(s[1..], pat)
  }

  /** `pat` occurs in `s` starting at index `i`. */
  predicate OccursAt(s: string, pat: string, i: nat) {
    i + |pat| <= |s| && s[i..i + |pat|] == pat
  }

  /** `Contains` is the search it stands for: it holds exactly when the
      pattern occurs at some index. */
  lemma {:induction false} ContainsIff(s: string, pat: string)
    ensures Contains(s, pat) <==> exists i: nat :: OccursAt(s, pat, i)
    decreases |s|
  {
    if pat <= s {
      assert OccursAt(s, pat, 0);
    } else if |s| == 0 {
    } else {
      ContainsIff(s[1..], pat);
      if exists i: nat :: OccursAt(s[1..], pat, i) {
        var i: nat :| OccursAt(s[1..], pat, i);
        assert s[1..][i..i + |pat|] == s[i + 1..i + 1 + |pat|];
        assert OccursAt(s, pat, i + 1);
      }
      if exists i: nat :: OccursAt(s, pat, i) {
        var i: nat :| OccursAt(s, pat, i);
        if i == 0 {
          assert false;
        }
        assert s[1..][i - 1..i - 1 + |pat|] == s[i..i + |pat|];
        assert OccursAt(s[1..], pat, i - 1);
      }
    }
  }

  /** The local `ShaderType` enumeration: `NONE`, `VERTEX`, `FRAGMENT`. */
  datatype ShaderType = NoShader | VertexShader | FragmentShader

  /** A line containing `#shader` switches the mode. */
  predicate IsMarker(line: string) {
    Contains(line, "#shader")
  }

  /** The mode a marker line selects: "vertex" is tested first, then
      "fragment"; any other marker selects `NONE`. */
  function MarkerType(line: string): (r: ShaderType)
    ensures r == VertexShader <==> Contains(line, "vertex")
    ensures r == FragmentShader <==> !Contains(line, "vertex") && Contains(line, "fragment")
  {
    if Contains(line, "vertex") then VertexShader
    else if Contains(line, "fragment") then FragmentShader
    else NoShader
  }

  /** The mode after reading `lines`, starting from `NONE`. */
  function ModeAfter(lines: seq<string>): ShaderType {
    if |lines| == 0 then NoShader
    else if IsMarker(lines[|lines| - 1]) then MarkerType(lines[|lines| - 1])
    else ModeAfter(lines[..|lines| - 1])
  }

  /** The text of section `t` after reading `lines`: each non-marker line
      read while the mode is `t`, followed by a newline, in input order. */
  function Kept(lines: seq<string>, t: ShaderType): string
    requires t != NoShader
  {
    if |lines| == 0 then ""
    else
      var init := lines[..|lines| - 1];
      var line := lines[|lines| - 1];
      Kept(init, t) + (if !IsMarker(line) && ModeAfter(init) == t then line + "\n" else "")
  }

  /** `ShaderProgramSource`. */
  datatype ProgramSource = ProgramSource(vertex: string, fragment: string)

  /** `parse_shader`: read the lines in order, switching mode at each
      marker and appending every other line to the current section. */
  method ParseShader(lines: seq<string>) returns (r: ProgramSource)
    ensures r.vertex == Kept(lines, VertexShader)
    ensures r.fragment == Kept(lines, FragmentShader)
  {
    var vertex, fragment := "", "";
    var mode := NoShader;
    var i := 0;
    while i < |lines|
      invariant 0 <= i <= |lines|
      invariant mode == ModeAfter(lines[..i])
      invariant vertex == Kept(lines[..i], VertexShader)
      invariant fragment == Kept(lines[..i], FragmentShader)
    {
      var line := lines[i];
      assert lines[..i + 1][..i] == lines[..i];
      if IsMarker(line) {
        mode := MarkerType(line);
      } else if mode == VertexShader {
        vertex := vertex + line + "\n";
      } else if mode == FragmentShader {
        fragment := fragment + line + "\n";
      }
      i := i + 1;
    }
    assert lines[..i] == lines;
    r := ProgramSource(vertex, fragment);
  }

  /** Line `j` is a marker selecting `t` and no marker follows it. */
  predicate LastMarkerAt(lines: seq<string>, j: int, t: ShaderType) {
    && 0 <= j < |lines|
    && IsMarker(lines[j]) && MarkerType(lines[j]) == t
    && forall k | j < k < |lines| :: !IsMarker(lines[k])
  }

  /** The mode is `VERTEX` or `FRAGMENT` exactly when the nearest marker
      so far selected it. */
  lemma {:induction false} ModeIsLastMarker(lines: seq<string>, t: ShaderType)
    requires t != NoShader
    ensures ModeAfter(lines) == t <==> exists j :: LastMarkerAt(lines, j, t)
  {
    if |lines| > 0 {
      var n := |lines| - 1;
      var init := lines[..n];
      if IsMarker(lines[n]) {
        if ModeAfter(lines) == t {
          assert LastMarkerAt(lines, n, t);
        }
        if exists j :: LastMarkerAt(lines, j, t) {
          var j :| LastMarkerAt(lines, j, t);
          assert j == n;
        }
      } else {
        ModeIsLastMarker(init, t);
        if exists j :: LastMarkerAt(init, j, t) {
          var j :| LastMarkerAt(init, j, t);
          assert LastMarkerAt(lines, j, t);
        }
        if exists j :: LastMarkerAt(lines, j, t) {
          var j :| LastMarkerAt(lines, j, t);
          assert LastMarkerAt(init, j, t);
        }
      }
    }
  }

  /** Section `t` built from the nearest-marker rule directly: a line is
      kept in `t` when it is not a marker and the nearest marker before it
      selected `t`. */
  ghost function Section(lines: seq<string>, t: ShaderType): string {
    if |lines| == 0 then ""
    else
      var init := lines[..|lines| - 1];
      var line := lines[|lines| - 1];
      Section(init, t)
      + (if !IsMarker(line) && exists j :: LastMarkerAt(init, j, t) then line + "\n" else "")
  }

  /** The state machine keeps exactly the lines the nearest-marker rule
      assigns to each section. */
  lemma {:induction false} KeptIsSection(lines: seq<string>, t: ShaderType)
    requires t != NoShader
    ensures Kept(lines, t) == Section(lines, t)
  {
    if |lines| > 0 {
      var init := lines[..|lines| - 1];
      KeptIsSection(init, t);
      ModeIsLastMarker(init, t);
    }
  }

  /** Without a marker nothing is kept. */
  lemma {:induction false} NoMarkerNoSource(lines: seq<string>, t: ShaderType)
    requires t != NoShader
    requires forall i | 0 <= i < |lines| :: !IsMarker(lines[i])
    ensures ModeAfter(lines) == NoShader
    ensures Kept(lines, t) == ""
  {
    if |lines| > 0 {
      NoMarkerNoSource(lines[..|lines| - 1], t);
    }
  }

  /** Marker lines themselves never reach a section: appending a marker
      leaves both sections as they were. */
  lemma MarkerNotKept(lines: seq<string>, marker: string, t: ShaderType)
    requires t != NoShader && IsMarker(marker)
    ensures Kept(lines + [marker], t) == Kept(lines, t)
  {
    assert (lines + [marker])[..|lines|] == lines;
  }

  /** A non-marker line lands in the current section, at its end, and in
      no other. */
  lemma AppendedToCurrent(lines: seq<string>, line: string, t: ShaderType)
    requires t != NoShader && !IsMarker(line)
    ensures ModeAfter(lines) == t ==> Kept(lines + [line], t) == Kept(lines, t) + line + "\n"
    ensures ModeAfter(lines) != t ==> Kept(lines + [line], t) == Kept(lines, t)
  {
    assert (lines + [line])[..|lines|] == lines;
  }

  /** The mode is the same after a marker-free preamble as without it. */
  lemma {:induction false} PreambleMode(pre: seq<string>, lines: seq<string>)
    requires forall i | 0 <= i < |pre| :: !IsMarker(pre[i])
    ensures ModeAfter(pre + lines) == ModeAfter(lines)
  {
    if |lines| == 0 {
      assert pre + lines == pre;
      NoMarkerNoSource(pre, VertexShader);
    } else {
      var init := lines[..|lines| - 1];
      assert (pre + lines)[..|pre + lines| - 1] == pre + init;
      PreambleMode(pre, init);
    }
  }

  /** Text before the first marker is discarded: a marker-free preamble
      changes neither section. */
  lemma {:induction false} PreambleDiscarded(pre: seq<string>, lines: seq<string>, t: ShaderType)
    requires t != NoShader
    requires forall i | 0 <= i < |pre| :: !IsMarker(pre[i])
    ensures Kept(pre + lines, t) == Kept(lines, t)
  {
    if |lines| == 0 {
      assert pre + lines == pre;
      NoMarkerNoSource(pre, t);
    } else {
      var init := lines[..|lines| - 1];
      assert (pre + lines)[..|pre + lines| - 1] == pre + init;
      assert (pre + lines)[|pre + lines| - 1] == lines[|lines| - 1];
      PreambleDiscarded(pre, init, t);
      PreambleMode(pre, init);
    }
  }

  /** A marker naming both stages selects the vertex stage. */
  lemma VertexTakesPriority()
    ensures MarkerType("#shader fragment vertex") == VertexShader
    ensures Kept(["#shader fragment vertex", "main"], VertexShader) == "main\n"
    ensures Kept(["#shader fragment vertex", "main"], FragmentShader) == ""
  {
    var marker := "#shader fragment vertex";
    assert OccursAt(marker, "#shader", 0);
    ContainsIff(marker, "#shader");
    assert OccursAt(marker, "vertex", 17);
    ContainsIff(marker, "vertex");
    var lines := ["#shader fragment vertex", "main"];
    assert lines[..1] == [marker];
    assert lines[..1][..0] == [];
    ContainsIff("main", "#shader");
  }

  /** The result of one `get_uniform_location` call: the location, the
      cache afterwards, whether GL was queried, and whether the "cannot
      find uniform" warning was printed. */
  datatype Lookup = Lookup(location: int, cache: map<string, int>, queried: bool, warned: bool)

  /** `get_uniform_location`: answer from the cache when the name is
      there; otherwise ask GL (`query`, the program's
      `glGetUniformLocation`), warn when the answer is -1, and cache the
      answer whatever it is. */
  function GetUniformLocation(cache: map<string, int>, name: string, query: string -> int): (r: Lookup)
    ensures r.cache.Keys == cache.Keys + {name}
    ensures name in r.cache && r.cache[name] == r.location
    ensures forall n | n in cache :: r.cache[n] == cache[n]
    ensures r.queried <==> name !in cache
    ensures name in cache ==> r.location == cache[name]
    ensures name !in cache ==> r.location == query(name)
    ensures r.warned <==> r.queried && r.location == -1
  {
    if name in cache then Lookup(cache[name], cache, false, false)
    else
      var location := query(name);
      Lookup(location, cache[name := location], true, location == -1)
  }

  /** A second lookup of the same name answers from the cache, without
      asking GL (whatever GL would now say) and without a warning. */
  lemma RepeatLookupCached(cache: map<string, int>, name: string, query: string -> int, later: string -> int)
    ensures var first := GetUniformLocation(cache, name, query);
            var second := GetUniformLocation(first.cache, name, later);
            && second.location == first.location
            && second.cache == first.cache
            && !second.queried && !second.warned
  {
  }

  /** A missing uniform is cached as -1: the warning is printed once. */
  lemma MissingUniformCached(cache: map<string, int>, name: string, query: string -> int)
    requires name !in cache && query(name) == -1
    ensures var first := GetUniformLocation(cache, name, query);
            && first.location == -1 && first.warned
            && first.cache[name] == -1
            && !GetUniformLocation(first.cache, name, query).warned
  {
  }

  /** Every cached location is what GL reports for that name. */
  ghost predicate CacheAgrees(cache: map<string, int>, query: string -> int) {
    forall n | n in cache :: cache[n] == query(n)
  }

  /** While the program (and so `query`) stays the same, the cache is
      invisible: every lookup returns what GL would, and the cache keeps
      agreeing with GL. */
  lemma CacheTransparent(cache: map<string, int>, name: string, query: string -> int)
    requires CacheAgrees(cache, query)
    ensures GetUniformLocation(cache, name, query).location == query(name)
    ensures CacheAgrees(GetUniformLocation(cache, name, query).cache, query)
  {
  }

  /** Looking up `names` in order: the final cache and the names for which
      GL was queried, in query order. */
  function LookupAll(cache: map<string, int>, names: seq<string>, query: string -> int): (r: (map<string, int>, seq<string>))
    ensures r.0.Keys == cache.Keys + set n | n in names
    decreases |names|
  {
    if |names| == 0 then (cache, [])
    else
      var first := GetUniformLocation(cache, names[0], query);
      var (final, queried) := LookupAll(first.cache, names[1..], query);
      (final, (if first.queried then [names[0]] else []) + queried)
  }

  /** However often the uniforms are looked up, GL is asked about each
      uncached name exactly once and never about a cached one. */
  lemma {:induction false} EachNameQueriedOnce(cache: map<string, int>, names: seq<string>, query: string -> int)
    ensures var queried := LookupAll(cache, names, query).1;
            && Distinct(queried)
            && (forall n :: n in queried <==> n in names && n !in cache)
    decreases |names|
  {
    if |names| > 0 {
      var first := GetUniformLocation(cache, names[0], query);
      EachNameQueriedOnce(first.cache, names[1..], query);
      var rest := LookupAll(first.cache, names[1..], query).1;
      var queried := LookupAll(cache, names, query).1;
      assert names[0] !in rest;
      assert names == [names[0]] + names[1..];
      if first.queried {
        assert queried == [names[0]] + rest;
        DistinctPrepend(names[0], rest);
      } else {
        assert queried == rest;
      }
    }
  }

  /** OpenGL ignores `glDeleteShader(0)`. */
  function DeleteShader(g: Gl, name: nat): (r: Gl)
    ensures name == 0 ==> r == g
    ensures name != 0 ==> r == Delete(g, name)
  {
    if name == 0 then g else Delete(g, name)
  }

  /** `compile_shader`: create a shader object and compile it; when
      compilation fails, delete the object and return 0, otherwise return
      its name. `compiles` stands for the driver's compile status. */
  function CompileShader(g: Gl, compiles: bool): (r: (nat, Gl))
    requires GlInv(g)
    ensures GlInv(r.1)
    ensures compiles <==> r.0 != 0
    ensures compiles ==> r.0 !in g.live && r.1.live == g.live + {r.0} && r.1.deleted == g.deleted
    ensures !compiles ==> r.1.live == g.live
                          && exists s :: s != 0 && s !in g.live && r.1.deleted == g.deleted + [s]
  {
    var (id, g1) := Generate(g);
    if compiles then (id, g1) else (0, Delete(g1, id))
  }

  /** `create_shader`: create a program, compile both stages, attach and
      link, then delete both shader objects, and return the program even
      when a stage failed to compile. */
  function CreateShader(g: Gl, vertexCompiles: bool, fragmentCompiles: bool): (r: (nat, Gl))
    requires GlInv(g)
    ensures GlInv(r.1)
    ensures r.0 != 0 && r.0 !in g.live && r.0 in r.1.live
  {
    var (program, g1) := Generate(g);
    var (vs, g2) := CompileShader(g1, vertexCompiles);
    var (fs, g3) := CompileShader(g2, fragmentCompiles);
    var g4 := DeleteShader(g3, vs);
    (program, DeleteShader(g4, fs))
  }

  /** Whatever the compile outcomes, the program is the only object
      `create_shader` leaves alive, and it deletes two shader objects,
      each once. */
  lemma CreateShaderNoLeak(g: Gl, vertexCompiles: bool, fragmentCompiles: bool)
    requires GlInv(g)
    ensures var (program, g1) := CreateShader(g, vertexCompiles, fragmentCompiles);
            && g1.live == g.live + {program}
            && |g1.deleted| == |g.deleted| + 2
            && g1.deleted[..|g.deleted|] == g.deleted
            && g1.deleted[|g.deleted|] != g1.deleted[|g.deleted| + 1]
            && program !in g1.deleted[|g.deleted|..]
  {
  }
}

=== FILE: triangle.dfy ===
/** The `Triangle` class: three requested side lengths a, b, c, the
    vertices placed from them (or dragged by the user), the side lengths
    measured back from the vertices, and Heron's area of the measured
    sides. */
module Triangles {
  import opened Geometry

  datatype Triangle = Triangle(a: real, b: real, c: real, area: real,
                               vertices: seq<Vec2>, sides: seq<real>)

  /** Both vectors hold three entries (the constructor resizes them to 3
      and nothing resizes them again). */
  predicate Shaped(t: Triangle) {
    |t.vertices| == 3 && |t.sides| == 3
  }

  /** `is_valid`: the strict triangle inequality on the requested sides. */
  predicate IsValid(t: Triangle) {
    TriangleInequality(t.a, t.b, t.c)
  }

  /** A triangle that passes `is_valid` has positive requested sides. */
  lemma ValidSidesPositive(t: Triangle)
    requires IsValid(t)
    ensures 0.0 < t.a && 0.0 < t.b && 0.0 < t.c
  {
    RadicandPositive(t.a, t.b, t.c);
  }

  /** `update_area`: Heron's formula on the measured sides, with
      s = (sides[0] + sides[1] + sides[2]) / 2. */
  function UpdateArea(m: Libm, t: Triangle): (r: Triangle)
    requires Shaped(t)
    ensures Shaped(r)
    ensures r.(area := t.area) == t
    ensures SqrtSound(m) && 0.0 <= HeronRadicand(t.sides[0], t.sides[1], t.sides[2])
            ==> 0.0 <= r.area
                && r.area * r.area == HeronRadicand(t.sides[0], t.sides[1], t.sides[2])
  {
    t.(area := m.sqrt(HeronRadicand(t.sides[0], t.sides[1], t.sides[2])))
  }

  /** The vertex opposite side i is i; the side is measured between the
      other two. */
  function Opposite(vertices: seq<Vec2>, i: int, m: Libm): real
    requires |vertices| == 3 && 0 <= i < 3
  {
    Distance(m, vertices[(i + 1) % 3], vertices[(i + 2) % 3])
  }

  /** `update_sides`: re-measure the three sides from the vertices and
      recompute the area. */
  function UpdateSides(m: Libm, t: Triangle): (r: Triangle)
    requires Shaped(t)
    ensures Shaped(r)
    ensures r.a == t.a && r.b == t.b && r.c == t.c && r.vertices == t.vertices
    ensures forall i | 0 <= i < 3 :: r.sides[i] == Opposite(t.vertices, i, m)
  {
    var v := t.vertices;
    DistanceSymmetric(m, v[2], v[0]);
    UpdateArea(m, t.(sides := [Distance(m, v[1], v[2]), Distance(m, v[0], v[2]),
                               Distance(m, v[0], v[1])]))
  }

  /** After `update_sides` the area is that of the triangle the vertices
      span (half the absolute cross product), whatever the vertices are:
      the radicand of three true distances is never negative. */
  lemma UpdateSidesArea(m: Libm, t: Triangle)
    requires Shaped(t) && SqrtSound(m)
    ensures 0.0 <= UpdateSides(m, t).area
    ensures UpdateSides(m, t).area
         == Abs(Cross(t.vertices[0], t.vertices[1], t.vertices[2])) / 2.0
  {
    var v := t.vertices;
    HeronAreaIsHalfCross(m, v[0], v[1], v[2]);
  }

  /** The cosine of the angle at vertex 0 between the sides of lengths c
      (towards vertex 1) and a (towards vertex 2), by the law of cosines. */
  function CosineAtOrigin(a: real, b: real, c: real): (r: real)
    requires TriangleInequality(a, b, c)
    ensures -1.0 < r < 1.0
  {
    RadicandPositive(a, b, c);
    ProductPositive(2.0 * a, c);
    CosineBounds(a, b, c);
    (a * a + c * c - b * b) / (2.0 * a * c)
  }

  /** |a² + c² - b²| < 2ac for the sides of a proper triangle. */
  lemma CosineBounds(a: real, b: real, c: real)
    requires TriangleInequality(a, b, c)
    ensures 0.0 < 2.0 * a * c
    ensures -1.0 < (a * a + c * c - b * b) / (2.0 * a * c) < 1.0
  {
    RadicandPositive(a, b, c);
    var d := 2.0 * a * c;
    ProductPositive(2.0 * a, c);
    assert d == Product(2.0 * a, c);
    var n := a * a + c * c - b * b;
    // b < a + c gives b² < (a + c)², that is -2ac < n
    SquareMonotonic(b, a + c);
    assert (a + c) * (a + c) == a * a + c * c + d;
    // |a - c| < b gives (a - c)² < b², that is n < 2ac
    SquareMonotonic(Abs(a - c), b);
    assert Abs(a - c) * Abs(a - c) == (a - c) * (a - c) by {
      if a - c < 0.0 { assert Abs(a - c) == c - a; }
    }
    assert (a - c) * (a - c) == a * a + c * c - d;
    QuotientBounds(n, d);
  }

  /** -d < n < d with d positive puts n / d strictly inside (-1, 1). */
  lemma QuotientBounds(n: real, d: real)
    requires 0.0 < d && -d < n < d
    ensures -1.0 < n / d < 1.0
  {
    var q := n / d;
    assert q * d == n;
  }

  /** The third vertex: at distance a from the origin, at the angle whose
      cosine the law of cosines gives. */
  function ThirdVertex(m: Libm, a: real, cosine: real): Vec2 {
    Vec2(a * m.cos(m.acos(cosine)), a * m.sin(m.acos(cosine)))
  }

  /** `update_vertices`: does nothing for invalid sides; otherwise puts
      vertex 0 at the origin, vertex 1 at (c, 0) and vertex 2 by the law of
      cosines, then re-measures the sides. */
  function UpdateVertices(m: Libm, t: Triangle): (r: Triangle)
    requires Shaped(t)
    ensures Shaped(r)
    ensures r.a == t.a && r.b == t.b && r.c == t.c
    ensures !IsValid(t) ==> r == t
    ensures IsValid(t) ==> r.vertices[0] == Origin && r.vertices[1] == Vec2(t.c, 0.0)
  {
    if !IsValid(t) then t
    else UpdateSides(m, t.(vertices := [Origin, Vec2(t.c, 0.0), ThirdVertex(m, t.a, CosineAtOrigin(t.a, t.b, t.c))]))
  }

  /** The placed vertices realise the requested sides: measured back, the
      sides are b (between vertices 1 and 2), a (between vertices 0 and 2)
      and c (between vertices 0 and 1), and the area is Heron's area of
      a, b, c, which is positive. */
  lemma PlacedSides(m: Libm, t: Triangle)
    requires Shaped(t) && IsValid(t) && SqrtSound(m) && TrigSound(m)
    ensures UpdateVertices(m, t).sides == [t.b, t.a, t.c]
    ensures UpdateVertices(m, t).area == m.sqrt(HeronRadicand(t.a, t.b, t.c))
    ensures 0.0 < UpdateVertices(m, t).area
  {
    var a, b, c := t.a, t.b, t.c;
    var r := UpdateVertices(m, t);
    var v := [Origin, Vec2(c, 0.0), ThirdVertex(m, a, CosineAtOrigin(a, b, c))];
    assert r.vertices == v;
    assert r.sides[0] == Distance(m, v[1], v[2]);
    assert r.sides[1] == Distance(m, v[0], v[2]) by {
      DistanceSymmetric(m, v[2], v[0]);
    }
    assert r.sides[2] == Distance(m, v[0], v[1]);
    ThirdVertexDistances(m, a, b, c);
    assert r.sides == [b, a, c];
    HeronRadicandSymmetric(b, a, c);
    RadicandPositive(a, b, c);
    SqrtPositive(m, HeronRadicand(a, b, c));
  }

  /** The third vertex is a away from the origin and b away from (c, 0);
      (c, 0) is c away from the origin. */
  lemma ThirdVertexDistances(m: Libm, a: real, b: real, c: real)
    requires TriangleInequality(a, b, c) && SqrtSound(m) && TrigSound(m)
    ensures Distance(m, Vec2(c, 0.0), ThirdVertex(m, a, CosineAtOrigin(a, b, c))) == b
    ensures Distance(m, Origin, ThirdVertex(m, a, CosineAtOrigin(a, b, c))) == a
    ensures Distance(m, Origin, Vec2(c, 0.0)) == c
  {
    RadicandPositive(a, b, c);
    ThirdVertexFromOrigin(m, a, CosineAtOrigin(a, b, c));
    ThirdVertexFromAxis(m, a, b, c);
    AxisDistance(m, c);
  }

  lemma ThirdVertexFromOrigin(m: Libm, a: real, k: real)
    requires SqrtSound(m) && TrigSound(m) && 0.0 < a
    ensures Distance(m, Origin, ThirdVertex(m, a, k)) == a
  {
    var angle := m.acos(k);
    UnitCircle(m, angle);
    PolarDistSq(a, m.cos(angle), m.sin(angle));
    DistanceOfSquare(m, Origin, ThirdVertex(m, a, k), a);
  }

  lemma ThirdVertexFromAxis(m: Libm, a: real, b: real, c: real)
    requires SqrtSound(m) && TrigSound(m) && TriangleInequality(a, b, c)
    ensures Distance(m, Vec2(c, 0.0), ThirdVertex(m, a, CosineAtOrigin(a, b, c))) == b
  {
    var k := CosineAtOrigin(a, b, c);
    var angle := m.acos(k);
    CosAcos(m, k);
    UnitCircle(m, angle);
    OppositeDistSq(a, b, c, m.cos(angle), m.sin(angle));
    RadicandPositive(a, b, c);
    DistanceOfSquare(m, Vec2(c, 0.0), ThirdVertex(m, a, k), b);
  }

  /** The point (c, 0) is c away from the origin. */
  lemma AxisDistance(m: Libm, c: real)
    requires SqrtSound(m) && 0.0 < c
    ensures Distance(m, Origin, Vec2(c, 0.0)) == c
  {
    DistanceOfSquare(m, Origin, Vec2(c, 0.0), c);
  }

  /** The point (a·k, a·l) with k² + l² = 1 is a away from the origin. */
  lemma PolarDistSq(a: real, k: real, l: real)
    requires k * k + l * l == 1.0
    ensures DistSq(Origin, Vec2(a * k, a * l)) == a * a
  {
    assert DistSq(Origin, Vec2(a * k, a * l)) == (a * a) * (k * k + l * l);
    ProductOfEquals(a * a, k * k + l * l, a * a, 1.0);
  }

  /** With k the law-of-cosines cosine and k² + l² = 1, the points (c, 0)
      and (a·k, a·l) are b apart. */
  lemma OppositeDistSq(a: real, b: real, c: real, k: real, l: real)
    requires TriangleInequality(a, b, c)
    requires k == CosineAtOrigin(a, b, c) && k * k + l * l == 1.0
    ensures DistSq(Vec2(c, 0.0), Vec2(a * k, a * l)) == b * b
  {
    var d := 2.0 * a * c;
    CosineBounds(a, b, c);
    assert k * d == a * a + c * c - b * b;
    assert DistSq(Vec2(c, 0.0), Vec2(a * k, a * l))
        == c * c - k * d + (a * a) * (k * k + l * l);
    ProductOfEquals(a * a, k * k + l * l, a * a, 1.0);
  }

  /** The `Triangle(a, b, c)` constructor: three zero vertices, three zero
      sides and area 0, then `update_vertices`. */
  function Create(m: Libm, a: real, b: real, c: real): (r: Triangle)
    ensures Shaped(r)
    ensures r.a == a && r.b == b && r.c == c
    ensures !TriangleInequality(a, b, c)
            ==> r.area == 0.0 && r.sides == [0.0, 0.0, 0.0]
                && r.vertices == [Origin, Origin, Origin]
  {
    UpdateVertices(m, Triangle(a, b, c, 0.0, [Origin, Origin, Origin], [0.0, 0.0, 0.0]))
  }

  /** A triangle built from sides that form one has the requested sides
      (in the order b, a, c) and a positive area. */
  lemma CreateValid(m: Libm, a: real, b: real, c: real)
    requires TriangleInequality(a, b, c) && SqrtSound(m) && TrigSound(m)
    ensures Create(m, a, b, c).sides == [b, a, c]
    ensures 0.0 < Create(m, a, b, c).area
  {
    PlacedSides(m, Triangle(a, b, c, 0.0, [Origin, Origin, Origin], [0.0, 0.0, 0.0]));
  }

  /** `move_vertex`: an index outside [0, 3) is ignored; otherwise that
      vertex is overwritten and the sides re-measured. */
  function MoveVertex(m: Libm, t: Triangle, index: int, pos: Vec2): (r: Triangle)
    requires Shaped(t)
    ensures Shaped(r)
    ensures !(0 <= index < 3) ==> r == t
    ensures 0 <= index < 3 ==>
            && r.vertices[index] == pos
            && (forall j | 0 <= j < 3 && j != index :: r.vertices[j] == t.vertices[j])
            && r.a == t.a && r.b == t.b && r.c == t.c
    ensures 0 <= index < 3 ==> forall i | 0 <= i < 3 :: r.sides[i] == Opposite(r.vertices, i, m)
  {
    if index < 0 || index >= 3 then t
    else UpdateSides(m, t.(vertices := t.vertices[index := pos]))
  }

  /** After a move the area is that of the new vertex triangle, and the
      sides are re-measured from the new vertices. */
  lemma MoveVertexArea(m: Libm, t: Triangle, index: int, pos: Vec2)
    requires Shaped(t) && SqrtSound(m) && 0 <= index < 3
    ensures var v := t.vertices[index := pos];
            MoveVertex(m, t, index, pos).area == Abs(Cross(v[0], v[1], v[2])) / 2.0
  {
    UpdateSidesArea(m, t.(vertices := t.vertices[index := pos]));
  }
}
